=== FILE: README.md ===
# ST7789V display and XL9555 expander drivers — Dafny model

This project models two MicroPython drivers for the DNESP32S3 board and
proves properties of the model.

The first is the ST7789V 240×320 SPI display driver. It keeps an RGB565
frame buffer in RAM, clips pixel and rectangle drawing to that buffer, and
programs the controller's orientation (MADCTL) and address window (CASET,
RASET, RAMWR). On refresh it streams the buffer in 512-byte chunks, with the
two bytes of each pixel swapped from the buffer's little-endian order to the
panel's big-endian order. Reset and backlight go through the expander.

The second is the XL9555 16-pin I2C GPIO expander driver. It keeps a
two-byte output cache and a two-byte direction cache, mirrored into the
chip's output and configuration registers. It reads single pins and the
input ports, and scans four active-low keys.

Modules:

- `Bits`: Python integer bit operations (`>>`, `&`, `|`, `|= 1 << b`,
  `&= ~(1 << b)`) on unbounded integers of either sign.
- `Outcomes`: the exceptions the drivers raise, as `Error` values. A `Step`
  pairs the post-state with a `Result`, because the drivers update their
  caches before they raise.
- `Bus`: the I2C register traffic (`RegWrite`, `RegRead`) and the SPI
  traffic (`Cmd`, `Data`) as event logs.
- `Xl9555`: the expander driver.
- `PixelStore`: the frame buffer as a byte sequence, with its reference
  pixel-level reading.
- `Transfer`: the refresh loop's chunking and byte swap, both as a
  reference definition and as the loop itself.
- `St7789v`: the display driver.

## Model

| member | source | states |
|---|---|---|
| Xl9555.Create | xl9555.py:40-60 | After construction the direction cache is 0x03/0xF0 and the output cache 0xFF/0xFF. The chip receives exactly four register writes: configuration port 0, then port 1, then output port 0, then port 1. |
| Xl9555.Config | xl9555.py:71-82 | The direction cache takes the new values even when they are not bytes. The call succeeds exactly when both values are bytes, and then writes registers 6 and 7 in that order. A bad first value sends nothing. A good first value with a bad second one sends only the register-6 write. |
| Xl9555.ConfigThenRead | xl9555.py:71-82 | After `config` the output word is unchanged. A pin reads by its new direction: an input from the chip's input register, an output from the output cache. |
| Xl9555.GetInput | xl9555.py:84-93 | Reads input register 0, then register 1, and returns a 16-bit word. Its low byte is port 0's input and its high byte is port 1's, so bit b of port p is bit 8p+b of the word. |
| Xl9555.GetInputPort | xl9555.py:95-107 | A port other than 0 or 1 is an error, and nothing is read or changed. Otherwise it reads exactly that port's input register and returns its byte. |
| Xl9555.SetOutput | xl9555.py:109-122 | The output cache becomes (value & 0xFF, (value >> 8) & 0xFF), written to output registers 2 then 3. The direction cache is untouched, and valid caches stay bytes. |
| Xl9555.SetThenGetOutput | xl9555.py:109-144 | Reading the output word after `set_output(v)` gives v modulo 2^16, and exactly v for any 16-bit v. |
| Xl9555.GetOutput | xl9555.py:137-144 | With byte caches the word is in 0..0xFFFF, and its low and high bytes are the port 0 and port 1 caches. |
| Xl9555.SetOutputPort | xl9555.py:124-135 | A bad port is an error with no change. Otherwise only that port's cache changes, and the call succeeds exactly when the value is a byte. Success writes that one register; a non-byte value writes nothing but still sits in the cache. |
| Xl9555.SetOutputPortThenGet | xl9555.py:124-144 | After `set_output_port` with a byte, `get_output` shows that byte at the port's place in the output word (low byte for port 0, high byte for port 1). The other port's byte is unchanged. |
| Xl9555.WritePin | xl9555.py:146-165 | Pins outside 0..15 are an error, and nothing changes. Otherwise, whatever the caches hold, exactly bit p%8 of port p/8 takes the level. Every other bit of that port, the other port and the direction cache are unchanged. The call succeeds exactly when that port's old cache is a byte, and then the new value is written to the port's output register; on failure nothing is written. |
| Xl9555.ReadPin | xl9555.py:167-191 | Pins outside 0..15 are an error. An input pin (direction bit 1) reads that port's input register and returns the pin's bit. An output pin returns its cached bit without any bus traffic. The result is always 0 or 1. |
| Xl9555.WriteThenRead | xl9555.py:146-191 | Writing an output pin and then reading it returns the written level, with no bus traffic. |
| Xl9555.TogglePin | xl9555.py:193-201 | Pins outside 0..15 are an error. For an output pin, exactly that pin's bit is inverted and the port register is rewritten. For an input pin, the input port is read from the chip first and the output bit becomes the inverse of the input level. Success is exactly when the port's old output cache is a byte. |
| Xl9555.ToggleTwice | xl9555.py:193-201 | Toggling an output pin twice restores the output caches. |
| Xl9555.SetBacklight | xl9555.py:203-210 | Drives pin P02 to the requested level and rewrites output port 0. The other bits of port 0, all of port 1 and the directions are unchanged. |
| Xl9555.SetLcdPower | xl9555.py:212-219 | Drives pin P03 to the requested level and rewrites output port 0. The other bits of port 0, all of port 1 and the directions are unchanged. |
| Xl9555.Beep | xl9555.py:221-228 | Drives pin P04 to the requested level and rewrites output port 0. The other bits of port 0, all of port 1 and the directions are unchanged. |
| Xl9555.KeyScan | xl9555.py:230-255 | Performs exactly the traffic of one `get_input`. It returns -1 exactly when no key bit (9, 8, 1, 0) reads low. Otherwise it returns the first key, in the order 0..3, whose bit reads low. |
| Xl9555.KeyScanPinDirections | xl9555.py:53-60 | After construction, the keys 0 and 1 pins (P11 = 9, P10 = 8) are outputs driven high, while the keys 2 and 3 pins (P01, P00) are inputs. |
| Bits.SetBitBits | xl9555.py:160-161 | `v \|= 1 << b` sets bit b and keeps every other bit, for any integer v. |
| Bits.SetBitIsOr | xl9555.py:160-161 | The bit-by-bit `SetBit` equals Python's `v \| (1 << b)` as the bitwise `Or` computes it, for any integer v. |
| Bits.ClearBitBits | xl9555.py:162-163 | `v &= ~(1 << b)` clears bit b and keeps every other bit, for any integer v. |
| Bits.SplitJoin | xl9555.py:117-144 | Recombining the high and low bytes of v with `(hi << 8) \| lo` gives v modulo 2^16. |
| Bits.JoinSplit | xl9555.py:137-144 | Splitting `(hi << 8) \| lo` back into bytes gives hi and lo. |
| Bits.BitUpdateByte | xl9555.py:160-165 | Setting or clearing one of the low eight bits keeps a value a byte exactly when it was one. So whether `bytes([...])` accepts the port after `write_pin` depends only on the cache before it. |
| PixelStore.Alloc | st7789v.py:75-76 | The buffer is width×height×2 bytes, and every pixel reads as colour 0. |
| PixelStore.SetPixel | st7789v.py:215-218 | An out-of-bounds pixel changes nothing. An in-bounds pixel (x, y) reads back as the colour modulo 2^16, while every other pixel and every byte outside its two keeps its value. |
| PixelStore.SetPixelOverwrite | st7789v.py:215-218 | Drawing the same pixel twice equals drawing only the second colour. |
| PixelStore.FillRect | st7789v.py:220-234 | An empty rectangle changes nothing. Otherwise every in-bounds pixel inside the rectangle takes the colour and every other pixel is unchanged, so the part outside the buffer is clipped away. |
| PixelStore.FillRectNegativeCorner | st7789v.py:224-234 | On a 240×320 buffer, a 10×10 fill at (-5, -5) colours exactly the 5×5 corner. |
| PixelStore.Fill | st7789v.py:150 | `fill` gives every pixel the colour and keeps the buffer's size. Each byte of the buffer is the colour's low byte at even offsets and its high byte at odd ones. |
| PixelStore.FillIsFullRect | st7789v.py:220-234 | Filling the screen equals filling the rectangle that covers the whole buffer. |
| PixelStore.OffsetInjective | st7789v.py:75-76 | Distinct pixels own disjoint byte pairs in the row-major, two-bytes-per-pixel layout. |
| PixelStore.OffsetOfLoc | st7789v.py:75-76 | Every byte of the buffer belongs to exactly one in-bounds pixel and one half of it. |
| Transfer.SwapPairsInvolutive | st7789v.py:206-210 | Swapping the bytes of every pixel twice gives back the original bytes. |
| Transfer.SwapPairsPixel | st7789v.py:208-209 | Pixel p of the swapped bytes is pixel p of the input, high byte first. |
| Transfer.ChunkSizes | st7789v.py:202-204 | Every chunk is 1..512 bytes, all but the last are exactly 512, and an empty buffer sends no chunk. |
| Transfer.ChunksWholePixels | st7789v.py:202-210 | A buffer of whole pixels is cut into chunks of whole pixels. |
| Transfer.ChunksFlatten | st7789v.py:202-211 | The chunks, concatenated in order, are the byte-swapped buffer. |
| Transfer.ChunksRoundTrip | st7789v.py:202-211 | Concatenating the chunks and swapping again gives the buffer back, with nothing lost, duplicated or reordered. |
| Transfer.SwapChunk | st7789v.py:206-210 | The inner loop builds exactly the reference byte swap of its slice. |
| Transfer.StreamFrame | st7789v.py:202-211 | The refresh loop, with its `min(i + CHUNK, n)` slices, produces exactly the reference chunk sequence. |
| St7789v.WriteRegSends | st7789v.py:92-114 | `_write_reg` sends one command with that code, then the data bytes as one write. It sends no data write when there are no bytes, keeps the earlier trace, and changes nothing else. |
| St7789v.CommandCodesDistinct | st7789v.py:14-28 | The eight command codes the driver uses are pairwise distinct. |
| St7789v.SetRotation | st7789v.py:152-170 | The rotation becomes r mod 4. The logical size is the buffer size, swapped for rotations 1 and 3. Exactly MADCTL and its one byte are sent, and the buffer is untouched. |
| St7789v.MadctlExchange | st7789v.py:152-170 | The MADCTL exchange bit (0x20) is set exactly for the rotations that swap width and height, and the four rotations get four distinct MADCTL bytes. |
| St7789v.RotationPeriodic | st7789v.py:153 | Rotations that differ by a multiple of 4 give the same display state. |
| St7789v.RotationKeepsArea | st7789v.py:152-169 | Every rotation keeps the logical area equal to the buffer's. |
| St7789v.SetWindow | st7789v.py:172-183 | `set_window` changes only the trace. It appends CASET with the start and end columns, RASET with the start and end rows (each as two 16-bit big-endian values), then RAMWR. |
| St7789v.WindowDecodes | st7789v.py:172-183 | The controller decodes CASET/RASET back to the window's corners modulo 2^16, and the commands come in the order CASET, RASET, RAMWR. |
| St7789v.WindowRoundTrip | st7789v.py:172-183 | For corners in 0..0xFFFF, the events `set_window` appends decode to exactly (x, x+w-1, y, y+h-1). |
| St7789v.WindowExample | st7789v.py:172-183 | `set_window(10, 20, 30, 40)` sends [0, 10, 0, 39] and [0, 20, 0, 59]. |
| St7789v.FrameCarriesBuffer | st7789v.py:201-211 | The refresh data writes are all data and all whole pixels of at most 512 bytes. Their concatenated payload is the byte-swapped buffer, swapping it back gives the buffer, and no command is interleaved. |
| St7789v.Show | st7789v.py:186-213 | A refresh changes only the trace. It appends the window over the whole physical panel, then the buffer's chunks. |
| St7789v.ShowStreamsBuffer | st7789v.py:186-213 | `show` keeps the earlier trace, then sends the full physical window (whatever the rotation), then data carrying the whole buffer byte-swapped. |
| St7789v.ShowCommands | st7789v.py:186-213 | The only commands a refresh sends are CASET, RASET and RAMWR, in that order. |
| St7789v.ShowIgnoresChipSelectAndRotation | st7789v.py:195 | The refresh traffic does not depend on the rotation or the logical size. |
| St7789v.ShowAsWritten | st7789v.py:186-213 | As written, a refresh without a chip-select pin fails after the window commands have gone out. With one, it is the refresh. |
| St7789v.PulseReset | st7789v.py:116-121 | Only pin 10's bit of output port 1 moves; port 0 and the directions are unchanged. The pulse succeeds exactly when the port-1 cache is a byte. Port 1 is then written twice, first with pin 10 low and then with it high, both writes keeping every other bit. Otherwise the first write raises after the cache has taken pin 10 low, and nothing is sent. |
| St7789v.Reset | st7789v.py:116-125 | Without an expander it is an error and nothing changes. With one it is the reset pulse, which succeeds exactly when the port-1 cache is a byte, and no SPI traffic is sent. |
| St7789v.SetBacklight | st7789v.py:127-132 | Without an expander nothing changes (the warning case). With one, pin 11 takes the level, and the other bits of port 1, port 0 and the directions are unchanged. A single write of output port 1 succeeds exactly when the port-1 cache is a byte. |
| St7789v.Wake | st7789v.py:143-148 | The configuration sends exactly sleep-out, colour mode 0x05, inversion on, MADCTL and display on, touching only the trace and the orientation. |
| St7789v.InitCommandCodes | st7789v.py:143-148 | The command codes of the configuration are 0x11, 0x3A, 0x21, 0x36, 0x29 in that order. |
| St7789v.Prepare | st7789v.py:134-149 | The part of `init_display` before the refresh succeeds exactly when there is no expander or its port-1 cache is a byte. It then sends exactly the configuration commands and leaves a black buffer of the same size. The expander log grows by three port-1 writes: pin 10 low, pin 10 high, pin 11 high. Afterwards pins 10 and 11 are high and every other pin, port 0 and the directions are as before. On failure nothing was sent on SPI or I2C, and only the cache took pin 10 low. |
| St7789v.Configure | st7789v.py:143-150 | The steps after the reset pulse: the configuration commands, backlight on and a black buffer. With an expander, only pin 11 is driven high. When that write raises, the configuration commands have already gone out. |
| St7789v.InitDisplay | st7789v.py:134-150 | Initialisation succeeds exactly when there is no expander or its port-1 cache is a byte, with the requested rotation and a black buffer of unchanged size. The SPI trace is the configuration commands, the full window and the frame, so its command codes are 0x11, 0x3A, 0x21, 0x36, 0x29, 0x2A, 0x2B, 0x2C in order. The data after RAMWR is the black buffer with its pixel bytes swapped. The expander takes the three writes that `Prepare` states. On failure the display is returned with nothing sent on SPI. |
| St7789v.InitFrame | st7789v.py:150 | After the configuration commands, the refresh makes the trace the commands, the full window and the frame. The commands after the old trace are the eight codes, and the data after RAMWR is the buffer byte-swapped. |
| St7789v.InitDisplayAsWritten | st7789v.py:134-150 | As written, initialisation without a chip-select pin always fails. When the expander allows it, the failure comes after the configuration commands and the window have gone out and the expander is initialised. With a chip-select pin, it is `InitDisplay`. |
| St7789v.Create | st7789v.py:52-90 | Construction succeeds exactly when there is no expander or its port-1 cache is a byte. The buffer is width×height×2 bytes of black pixels, and the rotation is r mod 4. The trace is exactly the configuration commands, the full window and the byte-swapped black frame. On every path, success or failure, the caller's expander is returned as `init_display` left it: with the reset pulse and the backlight-on write, or with only the failed reset-low cache update. |
| St7789v.CreateAsWritten | st7789v.py:52-90 | As written, construction with a chip-select pin is the corrected construction. On every path the caller's expander is returned as `init_display` left it. |
| St7789v.DefaultChipSelectBreaksConstructor | st7789v.py:52-213 | Construction as written with the default `cs=None` always fails, for every size, rotation and expander that the corrected driver accepts. The caller's expander has still taken the reset pulse and the backlight-on write. The corrected driver succeeds. |
| St7789v.DefaultChipSelectExample | st7789v.py:52-213 | The concrete case: 240×320, rotation 0, no expander. |
| St7789v.RunKeepsBuffer | st7789v.py:75-76 | Any sequence of drawing, rotation, window, refresh, reset and backlight operations keeps the buffer at width×height×2 bytes with its dimensions unchanged. |

## Left out

- The SPI, I2C and pin objects are left out. SPI traffic is the display's
  trace of commands and data. The data/command pin level is implied by the
  event kind, and the chip-select toggling around each write is not recorded.
- Every I2C and SPI transfer is assumed to succeed. The `OSError` that
  `i2c.writeto`, `i2c.readfrom` or `spi.write` can raise, which both
  drivers pass on unchanged, is not modelled.
- The `time.sleep_ms` delays are left out; they only order the events in
  time.
- The warning `set_backlight` prints without an expander is left out. It is
  modelled as the `Unavailable` result with no state change.
- MicroPython's `framebuf` is not part of this model. The buffer is assumed
  to be row-major, two bytes per pixel, low byte first. `pixel` and
  `fill_rect` delegate to it after clipping, and their meaning is given in
  those terms.
- The expander's I2C address, the polarity registers, the unused command and
  colour constants, and the pin-label comments are not modelled. The comments
  disagree with the code: `set_backlight` drives P02 while the display uses
  pin 11, and the constructor makes P10/P11 outputs although `key_scan` reads
  them as keys. The code is followed.
- What the chip returns for input reads comes from an `Inputs` snapshot
  parameter. Both reads of one `get_input` see the same snapshot.
- Xl9555.WritePin: the level is a `bool`. The driver tests truthiness
  (`if value:`), so any Python value maps onto it, and `toggle_pin` writes
  `not current`, which is a bool.
- St7789v.SetBacklight: `on` is a bool. For other values `int(on)` can
  differ from `on`'s truthiness or raise, and this is not modelled.
- Xl9555.Config: only non-byte integers are modelled as errors. The
  `TypeError` for values that are not integers is not.
- St7789v.Create: width and height are `nat`, so negative sizes are not
  modelled. `bytearray(width * height * 2)` raises only when the product is
  negative, and how `framebuf` treats a negative size is not part of this
  model.
- St7789v.Create: when `init_display` raises, the display's own partial
  state (the SPI commands already sent) is not returned, because Python
  loses the object when its constructor raises. The caller's expander is
  returned on every path. `InitDisplay` itself returns the whole partial
  state.
- The I2C writes and the SPI traffic are kept in two separate logs: the
  expander's register log and the display's trace. The model therefore does
  not state their interleaving: the reset pulse comes before SLPOUT, and
  backlight-on comes after DISPON.
- The driver shares the XL9555 object it is given with the rest of the
  program. The model threads that object through the display as
  `d.expander`, and returns the updated expander with the display. The
  constructor returns it even when it raises. Code that uses the expander in
  between is not modelled.
- Transfer.SwapPairs: it is total. A trailing odd byte is left in place,
  although the driver would raise `IndexError`. The frame buffer is always
  of even length, so this never happens.
- St7789v.Pixel and the `Op`/`Run` driver sequence have no ordering
  contracts. Only the buffer-size invariant (`RunKeepsBuffer`) and the pixel
  contracts in `PixelStore` are stated.

## Findings

| source | as written | input that shows it | evidently intended | confidence | as-written member | corrected member |
|---|---|---|---|---|---|---|
| st7789v.py:198 | `show` calls `self.cs(0)` and `self.cs(1)` unconditionally, but `cs` defaults to `None` and every other write guards with `if self.cs`. | `ST7789V(spi, dc)` with `cs` left at `None`: the constructor's `init_display` ends in `show`, which calls `None(0)` after CASET/RASET/RAMWR and raises. | Toggle chip-select only when a pin was given, as `_write_cmd` and `_write_data` do. | high, not executed | St7789v.ShowAsWritten, St7789v.DefaultChipSelectBreaksConstructor | St7789v.Show, St7789v.Create |

=== FILE: bits.dfy ===
/** Integer and bit-level helpers with the semantics of Python's integer
    operators. Python integers are unbounded two's-complement values: `>>` is
    floor division by a power of two and `&`, `|` act on the infinite bit
    string. Dafny's `/` and `%` with a positive divisor are floor division and
    a non-negative remainder, so `v % 256` is Python's `v & 0xFF` and
    `(v / 256) % 256` is Python's `(v >> 8) & 0xFF` for every integer `v`. */
module Bits {

  /** An integer that `bytes([...])` accepts. */
  predicate IsByte(v: int) {
    0 <= v < 256
  }

  type Byte = b: int | 0 <= b < 256

  function Pow2(n: nat): (p: nat)
    ensures p >= 1
  {
    if n == 0 then 1 else 2 * Pow2(n - 1)
  }

  /** Python's `v & 0xFF`. */
  function Lo(v: int): Byte {
    v % 256
  }

  /** Python's `(v >> 8) & 0xFF`. */
  function Hi(v: int): Byte {
    (v / 256) % 256
  }

  /** Python's `(v >> b) & 1`: bit `b` of the two's-complement bit string of `v`. */
  function BitOf(v: int, b: nat): (r: int)
    ensures r == 0 || r == 1
    decreases b
  {
    if b == 0 then v % 2 else BitOf(v / 2, b - 1)
  }

  /** Python's `v | (1 << b)`, defined bit by bit. */
  function SetBit(v: int, b: nat): int
    decreases b
  {
    if b == 0 then (if v % 2 == 1 then v else v + 1)
    else 2 * SetBit(v / 2, b - 1) + v % 2
  }

  /** Python's `v & ~(1 << b)`, defined bit by bit. */
  function ClearBit(v: int, b: nat): int
    decreases b
  {
    if b == 0 then v - v % 2
    else 2 * ClearBit(v / 2, b - 1) + v % 2
  }

  function Abs(v: int): nat {
    if v < 0 then -v else v
  }

  /** Python's `a | b` on two integers of either sign: 0 and -1 are the two
      bit strings that end the recursion (all zeros, all ones). */
  function Or(a: int, b: int): int
    decreases Abs(a) + Abs(b)
  {
    if a == 0 then b
    else if a == -1 then -1
    else if b == 0 then a
    else if b == -1 then -1
    else 2 * Or(a / 2, b / 2) + (if a % 2 == 1 || b % 2 == 1 then 1 else 0)
  }

  /** Python's `(hi << 8) | lo`, the recombination of two port bytes. */
  function Join(hi: int, lo: int): int {
    Or(hi * 256, lo)
  }

  // ---------------------------------------------------------------------
  // Arithmetic helpers

  /** Quotient and remainder are unique. */
  lemma DivModUnique(a: int, d: int, q: int, r: int)
    requires d > 0 && 0 <= r < d && a == q * d + r
    ensures a / d == q && a % d == r
  {
    var q', r' := a / d, a % d;
    assert a == q' * d + r';
    var k := q - q';
    assert k * d == q * d - q' * d;
    assert k * d == r' - r;
    if k >= 1 {
      MulAtLeast(k, d);
    } else if k <= -1 {
      MulAtLeast(-k, d);
    }
  }

  /** The difference of two even numbers is even. */
  lemma EvenSub(a: int, b: int)
    requires a % 2 == 0 && b % 2 == 0
    ensures (a - b) % 2 == 0
  {
    var p, q := a / 2, b / 2;
    assert a - b == 2 * (p - q) + 0;
    DivModUnique(a - b, 2, p - q, 0);
  }

  /** The sum of two even numbers is even. */
  lemma EvenAdd(a: int, b: int)
    requires a % 2 == 0 && b % 2 == 0
    ensures (a + b) % 2 == 0
  {
    var p, q := a / 2, b / 2;
    assert a + b == 2 * (p + q) + 0;
    DivModUnique(a + b, 2, p + q, 0);
  }

  lemma MulMonotone(a: int, b: int, c: int)
    requires a <= b && c >= 0
    ensures a * c <= b * c
  {
    assert b * c - a * c == (b - a) * c;
  }

  lemma MulAtLeast(k: int, d: int)
    requires k >= 1 && d > 0
    ensures k * d >= d
  {
    assert k * d == d + (k - 1) * d;
  }

  lemma Pow2Eight()
    ensures Pow2(8) == 256
  {
  }

  // ---------------------------------------------------------------------
  // Single-bit updates

  /** Setting bit `b` makes it 1 and leaves every other bit alone. */
  lemma {:induction false} SetBitBits(v: int, b: nat)
    ensures BitOf(SetBit(v, b), b) == 1
    ensures forall c: nat :: c != b ==> BitOf(SetBit(v, b), c) == BitOf(v, c)
    decreases b
  {
    if b == 0 {
      forall c: nat | c != 0
        ensures BitOf(SetBit(v, 0), c) == BitOf(v, c)
      {
        assert SetBit(v, 0) / 2 == v / 2;
      }
    } else {
      var x := SetBit(v / 2, b - 1);
      assert SetBit(v, b) / 2 == x;
      assert SetBit(v, b) % 2 == v % 2;
      SetBitBits(v / 2, b - 1);
      forall c: nat | c != b
        ensures BitOf(SetBit(v, b), c) == BitOf(v, c)
      {
        if c > 0 {
          assert BitOf(SetBit(v, b), c) == BitOf(x, c - 1);
        }
      }
    }
  }

  /** Clearing bit `b` makes it 0 and leaves every other bit alone. */
  lemma {:induction false} ClearBitBits(v: int, b: nat)
    ensures BitOf(ClearBit(v, b), b) == 0
    ensures forall c: nat :: c != b ==> BitOf(ClearBit(v, b), c) == BitOf(v, c)
    decreases b
  {
    if b == 0 {
      forall c: nat | c != 0
        ensures BitOf(ClearBit(v, 0), c) == BitOf(v, c)
      {
        assert ClearBit(v, 0) / 2 == v / 2;
      }
    } else {
      var x := ClearBit(v / 2, b - 1);
      assert ClearBit(v, b) / 2 == x;
      assert ClearBit(v, b) % 2 == v % 2;
      ClearBitBits(v / 2, b - 1);
      forall c: nat | c != b
        ensures BitOf(ClearBit(v, b), c) == BitOf(v, c)
      {
        if c > 0 {
          assert BitOf(ClearBit(v, b), c) == BitOf(x, c - 1);
        }
      }
    }
  }

  /** Setting a bit that is already 1 changes nothing. */
  lemma {:induction false} SetBitNoop(v: int, b: nat)
    requires BitOf(v, b) == 1
    ensures SetBit(v, b) == v
    decreases b
  {
    if b > 0 {
      SetBitNoop(v / 2, b - 1);
    }
  }

  /** Clearing a bit that is already 0 changes nothing. */
  lemma {:induction false} ClearBitNoop(v: int, b: nat)
    requires BitOf(v, b) == 0
    ensures ClearBit(v, b) == v
    decreases b
  {
    if b > 0 {
      ClearBitNoop(v / 2, b - 1);
    }
  }

  /** Setting after clearing is the same as setting. */
  lemma {:induction false} SetAfterClear(v: int, b: nat)
    ensures SetBit(ClearBit(v, b), b) == SetBit(v, b)
    decreases b
  {
    if b > 0 {
      var x := ClearBit(v / 2, b - 1);
      assert ClearBit(v, b) / 2 == x;
      assert ClearBit(v, b) % 2 == v % 2;
      SetAfterClear(v / 2, b - 1);
    }
  }

  /** Clearing after setting is the same as clearing. */
  lemma {:induction false} ClearAfterSet(v: int, b: nat)
    ensures ClearBit(SetBit(v, b), b) == ClearBit(v, b)
    decreases b
  {
    if b > 0 {
      var x := SetBit(v / 2, b - 1);
      assert SetBit(v, b) / 2 == x;
      assert SetBit(v, b) % 2 == v % 2;
      ClearAfterSet(v / 2, b - 1);
    }
  }

  /** Setting or clearing a bit below `k` leaves every bit from `k` up, so
      the quotient by 2^k is unchanged, for negative values too. */
  lemma {:induction false} BitUpdateHigh(v: int, b: nat, k: nat)
    requires b < k
    ensures SetBit(v, b) / Pow2(k) == v / Pow2(k)
    ensures ClearBit(v, b) / Pow2(k) == v / Pow2(k)
    decreases b
  {
    var p := Pow2(k - 1);
    assert Pow2(k) == 2 * p;
    var h, m := v / 2, v % 2;
    HalveQuotient(h, m, p);
    if b == 0 {
      HalveQuotient(h, 1, p);
      HalveQuotient(h, 0, p);
    } else {
      BitUpdateHigh(h, b - 1, k - 1);
      HalveQuotient(SetBit(h, b - 1), m, p);
      HalveQuotient(ClearBit(h, b - 1), m, p);
    }
  }

  /** Appending a low bit and doubling the divisor leave the quotient alone. */
  lemma HalveQuotient(x: int, r: int, p: int)
    requires p > 0 && 0 <= r < 2
    ensures (2 * x + r) / (2 * p) == x / p
  {
    var q, rr := x / p, x % p;
    assert 2 * x + r == q * (2 * p) + (2 * rr + r);
    DivModUnique(2 * x + r, 2 * p, q, 2 * rr + r);
  }

  /** Changing one of the low eight bits keeps a value a byte exactly when it
      was one: what `bytes([...])` accepts after `write_pin` depends only on
      the cache before it. */
  lemma BitUpdateByte(v: int, b: nat)
    requires b < 8
    ensures IsByte(SetBit(v, b)) <==> IsByte(v)
    ensures IsByte(ClearBit(v, b)) <==> IsByte(v)
  {
    Pow2Eight();
    BitUpdateHigh(v, b, 8);
    ByteIsSmallQuotient(v);
    ByteIsSmallQuotient(SetBit(v, b));
    ByteIsSmallQuotient(ClearBit(v, b));
  }

  /** A byte is exactly a value whose quotient by 256 is 0. */
  lemma ByteIsSmallQuotient(v: int)
    ensures IsByte(v) <==> v / 256 == 0
  {
    if IsByte(v) {
      DivModUnique(v, 256, 0, v);
    }
  }

  /** `v | (1 << b)` as the bitwise `Or` computes it agrees with `SetBit`. */
  lemma {:induction false} SetBitIsOr(v: int, b: nat)
    ensures SetBit(v, b) == Or(v, Pow2(b))
    decreases b
  {
    if b > 0 {
      SetBitIsOr(v / 2, b - 1);
      assert Pow2(b) / 2 == Pow2(b - 1);
      assert Pow2(b) % 2 == 0;
      if v == 0 {
        SetBitOfZero(b);
      }
    }
  }

  lemma {:induction false} SetBitOfZero(b: nat)
    ensures SetBit(0, b) == Pow2(b)
  {
    if b > 0 {
      SetBitOfZero(b - 1);
    }
  }

  // ---------------------------------------------------------------------
  // Two bytes into one word

  /** Or-ing a value below `2^k` into a multiple of `2^k` is addition. */
  lemma {:induction false} OrLow(hi: int, lo: int, k: nat)
    requires 0 <= lo < Pow2(k)
    ensures Or(hi * Pow2(k), lo) == hi * Pow2(k) + lo
    decreases k
  {
    if k == 0 {
      assert lo == 0;
    } else if hi != 0 && lo != 0 {
      var a := hi * Pow2(k);
      assert a == 2 * (hi * Pow2(k - 1));
      assert a / 2 == hi * Pow2(k - 1);
      assert a % 2 == 0;
      assert a != 0 && a != -1;
      OrLow(hi, lo / 2, k - 1);
    }
  }

  /** Bit `b` of `hi * 2^k + lo` (with `lo` below `2^k`) comes from `lo`
      when `b < k` and from `hi` otherwise. */
  lemma {:induction false} BitOfSplit(hi: int, lo: int, k: nat, b: nat)
    requires 0 <= lo < Pow2(k)
    ensures BitOf(hi * Pow2(k) + lo, b) == if b < k then BitOf(lo, b) else BitOf(hi, b - k)
    decreases k
  {
    if k == 0 {
      assert lo == 0;
    } else {
      var v := hi * Pow2(k) + lo;
      assert hi * Pow2(k) == 2 * (hi * Pow2(k - 1));
      assert v / 2 == hi * Pow2(k - 1) + lo / 2;
      assert v % 2 == lo % 2;
      if b > 0 {
        BitOfSplit(hi, lo / 2, k - 1, b - 1);
      }
    }
  }

  /** With a byte as low half, `(hi << 8) | lo` is `hi * 256 + lo`. */
  lemma JoinIsSum(hi: int, lo: int)
    requires IsByte(lo)
    ensures Join(hi, lo) == hi * 256 + lo
  {
    Pow2Eight();
    OrLow(hi, lo, 8);
  }

  /** Joining two bytes gives a 16-bit word whose bits are theirs. */
  lemma JoinBits(hi: int, lo: int, b: nat)
    requires IsByte(hi) && IsByte(lo)
    ensures 0 <= Join(hi, lo) <= 0xFFFF
    ensures BitOf(Join(hi, lo), b) == if b < 8 then BitOf(lo, b) else BitOf(hi, b - 8)
  {
    JoinIsSum(hi, lo);
    Pow2Eight();
    BitOfSplit(hi, lo, 8, b);
  }

  /** Splitting a word into `Hi`/`Lo` and joining again keeps its low 16 bits. */
  lemma SplitJoin(v: int)
    ensures Join(Hi(v), Lo(v)) == v % 65536
  {
    JoinIsSum(Hi(v), Lo(v));
    var q, r := v / 256, v % 256;
    assert v == q * 256 + r;
    assert q == (q / 256) * 256 + q % 256;
    assert v == (q / 256) * 65536 + (q % 256 * 256 + r);
    DivModUnique(v, 65536, q / 256, q % 256 * 256 + r);
  }

  /** Joining two bytes and splitting again gives them back. */
  lemma JoinSplit(hi: int, lo: int)
    requires IsByte(hi) && IsByte(lo)
    ensures Hi(Join(hi, lo)) == hi && Lo(Join(hi, lo)) == lo
  {
    JoinIsSum(hi, lo);
    DivModUnique(hi * 256 + lo, 256, hi, lo);
    DivModUnique(hi, 256, 0, hi);
  }
}

=== FILE: bus.dfy ===
/** The transports of both drivers, reduced to the sequence of events they
    put on the wire. The SPI display bus carries command bytes (data/command
    line low) and data payloads (line high); the I2C expander bus carries
    register writes and register-pointer writes that precede a one-byte read. */
module Bus {
  import opened Bits

  datatype Event =
    | Cmd(code: Byte)                  // one command byte on SPI
    | Data(bytes: seq<Byte>)           // one SPI data write
    | RegWrite(reg: Byte, value: Byte) // I2C write of [reg, value]
    | RegRead(reg: Byte)               // I2C write of [reg] followed by a one-byte read

  /** All SPI data bytes of a trace, in order. */
  function Payload(evs: seq<Event>): seq<Byte>
  {
    if |evs| == 0 then []
    else (if evs[0].Data? then evs[0].bytes else []) + Payload(evs[1..])
  }

  lemma {:induction false} PayloadAppend(a: seq<Event>, b: seq<Event>)
    ensures Payload(a + b) == Payload(a) + Payload(b)
  {
    if |a| > 0 {
      assert (a + b)[1..] == a[1..] + b;
      PayloadAppend(a[1..], b);
    } else {
      assert a + b == b;
    }
  }
}

=== FILE: outcomes.dfy ===
/** Error reporting shared by both drivers. Python exceptions become an
    `Err` value; because the drivers mutate their caches before some of the
    raising calls, an operation returns the driver state together with the
    outcome, so a failed call can still show what it changed first. */
module Outcomes {

  /** The exceptions the two drivers raise, by cause. */
  datatype Error =
    | BadPin            // ValueError: pin outside 0..15
    | BadPort           // ValueError: port not 0 or 1
    | BadByte           // ValueError from bytes([...]): a register value outside 0..255
    | ResetUnavailable  // RuntimeError: reset requested without a GPIO expander
    | NoChipSelect      // TypeError: chip-select toggled when no chip-select pin exists

  datatype Result<+T> = Ok(value: T) | Err(error: Error)

  datatype Option<+T> = None | Some(value: T)

  /** The state after an operation and what the operation returned or raised. */
  datatype Step<+S, +T> = Step(state: S, out: Result<T>)
}

=== FILE: pixel_store.dfy ===
/** The display driver's frame buffer: `width * height` pixels, 2 bytes each,
    row-major, so pixel (x, y) occupies bytes `(y * width + x) * 2` and the
    one after it. The buffer is handed to MicroPython's `framebuf` in RGB565
    mode, whose pixel, rectangle and fill primitives are foreign code; this
    module ASSUMES their layout, a 16-bit colour stored low byte first at
    that index, and models the driver's clipping on top of them. */
module PixelStore {
  import opened Bits

  datatype Store = Store(width: nat, height: nat, bytes: seq<Byte>)

  /** The buffer length the driver allocates, kept by every operation. */
  predicate Valid(s: Store) {
    |s.bytes| == s.width * s.height * 2
  }

  /** The buffer holds whole pixels. */
  lemma EvenLength(s: Store)
    requires Valid(s)
    ensures |s.bytes| % 2 == 0
  {
    DivModUnique(|s.bytes|, 2, s.width * s.height, 0);
  }

  /** The 16 bits of a colour argument that an RGB565 pixel keeps. */
  function Color16(c: int): int {
    c % 65536
  }

  predicate InBounds(s: Store, x: int, y: int) {
    0 <= x < s.width && 0 <= y < s.height
  }

  /** Pixel (x, y) lies in the rectangle with corner (x0, y0) and size w × h. */
  predicate InRect(x: int, y: int, x0: int, y0: int, w: int, h: int) {
    x0 <= x < x0 + w && y0 <= y < y0 + h
  }

  /** Index of the first byte of pixel (x, y). */
  function Offset(width: nat, x: int, y: int): int {
    (y * width + x) * 2
  }

  /** Column of the pixel that byte `k` belongs to. */
  function ColOf(width: nat, k: int): int {
    if width == 0 then 0 else (k / 2) % width
  }

  /** Row of the pixel that byte `k` belongs to. */
  function RowOf(width: nat, k: int): int {
    if width == 0 then 0 else (k / 2) / width
  }

  /** The byte of colour `c` at position `half` (0 low, 1 high) of a pixel. */
  function ColorByte(c: int, half: int): Byte {
    if half == 0 then Lo(c) else Hi(c)
  }

  // -----------------------------------------------------------------------
  // Index arithmetic

  /** Both bytes of an in-bounds pixel lie inside the buffer. */
  lemma OffsetBounds(s: Store, x: int, y: int)
    requires Valid(s) && InBounds(s, x, y)
    ensures 0 <= Offset(s.width, x, y) && Offset(s.width, x, y) + 1 < |s.bytes|
  {
    var w, h := s.width, s.height;
    MulMonotone(y + 1, h, w);
    assert (y + 1) * w == y * w + w;
    assert y * w + x < h * w;
  }

  /** The byte at `Offset + half` maps back to pixel (x, y) and byte `half`. */
  lemma LocOfOffset(width: nat, x: int, y: int, half: int)
    requires 0 <= x < width && 0 <= y && (half == 0 || half == 1)
    ensures ColOf(width, Offset(width, x, y) + half) == x
    ensures RowOf(width, Offset(width, x, y) + half) == y
    ensures (Offset(width, x, y) + half) % 2 == half
  {
    var p := y * width + x;
    DivModUnique(p * 2 + half, 2, p, half);
    DivModUnique(p, width, y, x);
  }

  /** Every byte of the buffer belongs to an in-bounds pixel. */
  lemma OffsetOfLoc(s: Store, k: int)
    requires Valid(s) && 0 <= k < |s.bytes|
    ensures InBounds(s, ColOf(s.width, k), RowOf(s.width, k))
    ensures Offset(s.width, ColOf(s.width, k), RowOf(s.width, k)) + k % 2 == k
  {
    var w, h := s.width, s.height;
    assert w > 0;
    var p := k / 2;
    assert k == 2 * p + k % 2;
    assert p < w * h;
    var col, row := p % w, p / w;
    assert p == row * w + col;
  }

  /** Two distinct in-bounds pixels never share a byte. */
  lemma OffsetInjective(s: Store, x: int, y: int, i: int, j: int)
    requires Valid(s) && InBounds(s, x, y) && InBounds(s, i, j) && (x, y) != (i, j)
    ensures Offset(s.width, x, y) != Offset(s.width, i, j)
    ensures Offset(s.width, x, y) + 1 != Offset(s.width, i, j)
    ensures Offset(s.width, x, y) != Offset(s.width, i, j) + 1
  {
    LocOfOffset(s.width, x, y, 0);
    LocOfOffset(s.width, i, j, 0);
    LocOfOffset(s.width, x, y, 1);
    LocOfOffset(s.width, i, j, 1);
  }

  /** Reading back the colour stored at an in-bounds pixel. */
  function PixelAt(s: Store, x: int, y: int): (c: int)
    requires Valid(s) && InBounds(s, x, y)
    ensures 0 <= c < 65536
  {
    OffsetBounds(s, x, y);
    var o := Offset(s.width, x, y);
    (s.bytes[o] as int) + 256 * (s.bytes[o + 1] as int)
  }

  /** A colour's two stored bytes read back as its low 16 bits. */
  lemma ColorBytes(c: int)
    ensures ColorByte(c, 0) + 256 * ColorByte(c, 1) == Color16(c)
  {
    SplitJoin(c);
    JoinIsSum(Hi(c), Lo(c));
  }

  // -----------------------------------------------------------------------
  // framebuf primitives (assumed layout)

  /** framebuf `pixel`: writes the two bytes of one in-bounds pixel. */
  function BasePixel(s: Store, x: int, y: int, c: int): (r: Store)
    requires Valid(s) && InBounds(s, x, y)
    ensures Valid(r) && r.width == s.width && r.height == s.height
  {
    OffsetBounds(s, x, y);
    var o := Offset(s.width, x, y);
    s.(bytes := s.bytes[o := Lo(c)][o + 1 := Hi(c)])
  }

  /** framebuf `fill_rect`: every in-bounds pixel of the rectangle. */
  function BaseFillRect(s: Store, x: int, y: int, w: int, h: int, c: int): (r: Store)
    requires Valid(s)
    ensures r.width == s.width && r.height == s.height && |r.bytes| == |s.bytes|
  {
    s.(bytes := seq(|s.bytes|, k requires 0 <= k < |s.bytes| =>
      if InRect(ColOf(s.width, k), RowOf(s.width, k), x, y, w, h) then ColorByte(c, k % 2) else s.bytes[k]))
  }

  /** framebuf `fill`: every pixel. */
  function BaseFill(s: Store, c: int): (r: Store)
    requires Valid(s)
    ensures r.width == s.width && r.height == s.height && |r.bytes| == |s.bytes|
  {
    s.(bytes := seq(|s.bytes|, k requires 0 <= k < |s.bytes| => ColorByte(c, k % 2)))
  }

  /** What `BaseFillRect` does to each pixel. */
  lemma BaseFillRectPixels(s: Store, x: int, y: int, w: int, h: int, c: int)
    requires Valid(s)
    ensures var r := BaseFillRect(s, x, y, w, h, c);
      forall i, j :: InBounds(s, i, j) ==>
        PixelAt(r, i, j) == if InRect(i, j, x, y, w, h) then Color16(c) else PixelAt(s, i, j)
  {
    var r := BaseFillRect(s, x, y, w, h, c);
    forall i, j | InBounds(s, i, j)
      ensures PixelAt(r, i, j) == if InRect(i, j, x, y, w, h) then Color16(c) else PixelAt(s, i, j)
    {
      OffsetBounds(s, i, j);
      LocOfOffset(s.width, i, j, 0);
      LocOfOffset(s.width, i, j, 1);
      ColorBytes(c);
    }
  }

  // -----------------------------------------------------------------------
  // The driver's drawing operations

  /** A fresh buffer: `bytearray(width * height * 2)`, all zero. */
  function Alloc(width: nat, height: nat): (s: Store)
    ensures Valid(s) && s.width == width && s.height == height
    ensures forall i, j :: InBounds(s, i, j) ==> PixelAt(s, i, j) == 0
  {
    var s := Store(width, height, seq(width * height * 2, _ => 0));
    assert forall i, j :: InBounds(s, i, j) ==> PixelAt(s, i, j) == 0 by {
      forall i, j | InBounds(s, i, j) ensures PixelAt(s, i, j) == 0 {
        OffsetBounds(s, i, j);
      }
    }
    s
  }

  /** `pixel`: writes only an in-bounds pixel, and only its two bytes. */
  function SetPixel(s: Store, x: int, y: int, c: int): (r: Store)
    requires Valid(s)
    ensures Valid(r) && r.width == s.width && r.height == s.height
    ensures !InBounds(s, x, y) ==> r == s
    ensures forall i, j :: InBounds(s, i, j) ==>
      PixelAt(r, i, j) == if i == x && j == y then Color16(c) else PixelAt(s, i, j)
    ensures InBounds(s, x, y) ==> forall k :: 0 <= k < |s.bytes| && k / 2 != y * s.width + x ==>
      r.bytes[k] == s.bytes[k]
  {
    if InBounds(s, x, y) then
      var r := BasePixel(s, x, y, c);
      SetPixelPixels(s, x, y, c);
      r
    else
      s
  }

  lemma SetPixelPixels(s: Store, x: int, y: int, c: int)
    requires Valid(s) && InBounds(s, x, y)
    ensures var r := BasePixel(s, x, y, c);
      && (forall i, j :: InBounds(s, i, j) ==>
            PixelAt(r, i, j) == if i == x && j == y then Color16(c) else PixelAt(s, i, j))
      && (forall k :: 0 <= k < |s.bytes| && k / 2 != y * s.width + x ==> r.bytes[k] == s.bytes[k])
  {
    var r := BasePixel(s, x, y, c);
    forall i, j | InBounds(s, i, j)
      ensures PixelAt(r, i, j) == if i == x && j == y then Color16(c) else PixelAt(s, i, j)
    {
      BasePixelAt(s, x, y, c, i, j);
    }
    var p := y * s.width + x;
    var o := Offset(s.width, x, y);
    OffsetBounds(s, x, y);
    assert o == 2 * p;
    assert r.bytes == s.bytes[o := Lo(c)][o + 1 := Hi(c)];
    forall k | 0 <= k < |s.bytes| && k / 2 != p
      ensures r.bytes[k] == s.bytes[k]
    {
      assert k != o && k != o + 1;
    }
  }

  /** One pixel read after `BasePixel`. */
  lemma BasePixelAt(s: Store, x: int, y: int, c: int, i: int, j: int)
    requires Valid(s) && InBounds(s, x, y) && InBounds(s, i, j)
    ensures PixelAt(BasePixel(s, x, y, c), i, j) == if i == x && j == y then Color16(c) else PixelAt(s, i, j)
  {
    OffsetBounds(s, x, y);
    OffsetBounds(s, i, j);
    var o, q := Offset(s.width, x, y), Offset(s.width, i, j);
    var r := BasePixel(s, x, y, c);
    assert r.bytes == s.bytes[o := Lo(c)][o + 1 := Hi(c)];
    assert PixelAt(r, i, j) == (r.bytes[q] as int) + 256 * (r.bytes[q + 1] as int);
    if i == x && j == y {
      assert q == o;
      ColorBytes(c);
    } else {
      OffsetInjective(s, x, y, i, j);
      assert r.bytes[q] == s.bytes[q] && r.bytes[q + 1] == s.bytes[q + 1];
    }
  }

  /** `fill_rect`: nothing for an empty size; otherwise the rectangle is
      clamped to the buffer and handed to framebuf. */
  function FillRect(s: Store, x: int, y: int, w: int, h: int, c: int): (r: Store)
    requires Valid(s)
    ensures Valid(r) && r.width == s.width && r.height == s.height
    ensures w <= 0 || h <= 0 ==> r == s
    ensures forall i, j :: InBounds(s, i, j) ==>
      PixelAt(r, i, j) == if InRect(i, j, x, y, w, h) then Color16(c) else PixelAt(s, i, j)
  {
    if w <= 0 || h <= 0 then
      s
    else
      var endX := if x + w > s.width then s.width else x + w;
      var endY := if y + h > s.height then s.height else y + h;
      var cx := if x < 0 then 0 else x;
      var cy := if y < 0 then 0 else y;
      BaseFillRectPixels(s, cx, cy, endX - cx, endY - cy, c);
      BaseFillRect(s, cx, cy, endX - cx, endY - cy, c)
  }

  /** `fill`: every pixel gets the colour. */
  function Fill(s: Store, c: int): (r: Store)
    requires Valid(s)
    ensures Valid(r) && r.width == s.width && r.height == s.height
    ensures forall i, j :: InBounds(s, i, j) ==> PixelAt(r, i, j) == Color16(c)
    ensures forall k :: 0 <= k < |r.bytes| ==> r.bytes[k] == ColorByte(c, k % 2)
  {
    var r := BaseFill(s, c);
    assert forall i, j :: InBounds(s, i, j) ==> PixelAt(r, i, j) == Color16(c) by {
      forall i, j | InBounds(s, i, j) ensures PixelAt(r, i, j) == Color16(c) {
        OffsetBounds(s, i, j);
        LocOfOffset(s.width, i, j, 1);
        ColorBytes(c);
      }
    }
    r
  }

  // -----------------------------------------------------------------------
  // Properties relating the operations

  /** `fill` is `fill_rect` over the whole buffer, byte for byte. */
  lemma FillIsFullRect(s: Store, c: int)
    requires Valid(s)
    ensures Fill(s, c) == FillRect(s, 0, 0, s.width, s.height, c)
  {
    var a, b := Fill(s, c), FillRect(s, 0, 0, s.width, s.height, c);
    if s.width > 0 && s.height > 0 {
      forall k | 0 <= k < |s.bytes|
        ensures a.bytes[k] == b.bytes[k]
      {
        OffsetOfLoc(s, k);
      }
    }
  }

  /** Filling a w × h rectangle at (-5, -5) with w = h = 10 on a 240 × 320
      buffer changes exactly the pixels (0..4, 0..4). */
  lemma FillRectNegativeCorner(s: Store, c: int)
    requires Valid(s) && s.width == 240 && s.height == 320
    ensures var r := FillRect(s, -5, -5, 10, 10, c);
      forall i, j :: InBounds(s, i, j) ==>
        PixelAt(r, i, j) == if i < 5 && j < 5 then Color16(c) else PixelAt(s, i, j)
  {
  }

  /** Drawing a pixel twice at the same place keeps only the second colour. */
  lemma SetPixelOverwrite(s: Store, x: int, y: int, c: int, d: int)
    requires Valid(s)
    ensures SetPixel(SetPixel(s, x, y, c), x, y, d) == SetPixel(s, x, y, d)
  {
    if InBounds(s, x, y) {
      OffsetBounds(s, x, y);
      var o := Offset(s.width, x, y);
      assert SetPixel(SetPixel(s, x, y, c), x, y, d).bytes == s.bytes[o := Lo(d)][o + 1 := Hi(d)];
    }
  }
}

=== FILE: st7789v.dfy ===
/** The ST7789V display driver: a frame buffer in RAM, the commands that
    program the controller, and the refresh that streams the buffer to it.
    The SPI bus is the driver's trace of `Cmd`/`Data` events; the optional
    XL9555 expander that drives the panel's reset and backlight lines is the
    expander model itself, so pin writes show up in its register log. */
module St7789v {
  import opened Bits
  import opened Outcomes
  import opened Bus
  import opened Transfer
  import PS = PixelStore
  import X = Xl9555

  /** The controller commands the driver sends. */
  datatype Command =
    | SleepOut          // SLPOUT
    | InversionOn       // INVON
    | DisplayOn         // DISPON
    | ColumnAddressSet  // CASET
    | RowAddressSet     // RASET
    | MemoryWrite       // RAMWR
    | AddressingMode    // MADCTL
    | ColorMode         // COLMOD
  {
    function Code(): Byte {
      match this
      case SleepOut => 0x11
      case InversionOn => 0x21
      case DisplayOn => 0x29
      case ColumnAddressSet => 0x2A
      case RowAddressSet => 0x2B
      case MemoryWrite => 0x2C
      case AddressingMode => 0x36
      case ColorMode => 0x3A
    }
  }

  /** COLMOD payload selecting 16 bits per pixel. */
  const Rgb565Mode: Byte := 0x05
  const Black := 0x0000

  /** Expander pins wired to the panel's reset and backlight-power lines. */
  const PinReset := 10
  const PinBacklight := 11

  datatype Display = Display(
    store: PS.Store,            // frame buffer with the physical width and height
    rotation: int,              // 0..3 after set_rotation
    w: int,                     // logical width for the rotation
    h: int,                     // logical height for the rotation
    hasCs: bool,                // a chip-select pin was given
    expander: Option<X.Expander>,
    trace: seq<Event>)          // everything written on SPI so far

  /** What `set_backlight` reports: done, or only the warning. */
  datatype Backlight = Switched | Unavailable

  /** The logical size seen in a rotation: swapped for the landscape ones. */
  function LogicalSize(width: nat, height: nat, rotation: int): (int, int) {
    if rotation % 2 == 1 then (height, width) else (width, height)
  }

  /** Frame buffer allocated, rotation applied. */
  predicate Valid(d: Display) {
    && PS.Valid(d.store)
    && 0 <= d.rotation < 4
    && (d.w, d.h) == LogicalSize(d.store.width, d.store.height, d.rotation)
  }

  // -----------------------------------------------------------------------
  // Bus primitives

  /** The command codes of a trace, in order. */
  function Commands(evs: seq<Event>): seq<Byte> {
    if |evs| == 0 then []
    else (if evs[0].Cmd? then [evs[0].code] else []) + Commands(evs[1..])
  }

  /** `_write_cmd`: one command byte. */
  function WriteCmd(d: Display, c: Command): Display {
    d.(trace := d.trace + [Cmd(c.Code())])
  }

  /** `_write_data`: one data write. */
  function WriteData(d: Display, data: seq<Byte>): Display {
    d.(trace := d.trace + [Data(data)])
  }

  /** `_write_reg`: a command followed by its payload when there is one. */
  function WriteReg(d: Display, c: Command, data: seq<Byte>): Display {
    var d1 := WriteCmd(d, c);
    if |data| > 0 then WriteData(d1, data) else d1
  }

  lemma {:induction false} CommandsAppend(a: seq<Event>, b: seq<Event>)
    ensures Commands(a + b) == Commands(a) + Commands(b)
  {
    if |a| > 0 {
      assert (a + b)[1..] == a[1..] + b;
      CommandsAppend(a[1..], b);
    } else {
      assert a + b == b;
    }
  }

  /** What the panel receives from `_write_reg`: the command, then exactly
      the given bytes, and no data write at all when there are none; the
      earlier trace and the rest of the display are left alone. */
  lemma WriteRegSends(d: Display, c: Command, data: seq<Byte>)
    ensures var d' := WriteReg(d, c, data);
      && d' == d.(trace := d'.trace)
      && |d'.trace| == |d.trace| + (if |data| > 0 then 2 else 1) && d'.trace[..|d.trace|] == d.trace
      && Commands(d'.trace[|d.trace|..]) == [c.Code()]
      && Payload(d'.trace[|d.trace|..]) == data
  {
    var added := WriteReg(d, c, data).trace[|d.trace|..];
    if |data| > 0 {
      assert added == [Cmd(c.Code())] + [Data(data)];
      CommandsAppend([Cmd(c.Code())], [Data(data)]);
      PayloadAppend([Cmd(c.Code())], [Data(data)]);
    } else {
      assert added == [Cmd(c.Code())];
    }
  }


  /** The command codes are pairwise distinct, so a trace names its commands
      unambiguously. */
  lemma CommandCodesDistinct(a: Command, b: Command)
    ensures a.Code() == b.Code() <==> a == b
  {
  }

  // -----------------------------------------------------------------------
  // Rotation

  /** The MADCTL value for a rotation: bit 7 mirrors rows, bit 6 mirrors
      columns, bit 5 exchanges rows and columns. */
  function Madctl(rotation: int): Byte
    requires 0 <= rotation < 4
  {
    if rotation == 0 then 0x00
    else if rotation == 1 then 0x60
    else if rotation == 2 then 0xC0
    else 0xA0
  }

  /** The row/column exchange bit is set exactly for the rotations whose
      logical size is swapped, and the four codes are distinct. */
  lemma MadctlExchange(r: int, q: int)
    requires 0 <= r < 4 && 0 <= q < 4
    ensures BitOf(Madctl(r), 5) == 1 <==> r % 2 == 1
    ensures Madctl(r) == Madctl(q) <==> r == q
  {
    assert BitOf(0x00, 5) == 0 && BitOf(0x60, 5) == 1 && BitOf(0xC0, 5) == 0 && BitOf(0xA0, 5) == 1;
  }

  /** `set_rotation`: keeps `r mod 4`, derives the logical size and sends
      MADCTL; the frame buffer and its physical size are untouched. */
  function SetRotation(d: Display, r: int): (d': Display)
    requires PS.Valid(d.store)
    ensures Valid(d')
    ensures d'.rotation == r % 4 && 0 <= d'.rotation < 4
    ensures d'.rotation % 2 == 1 ==> d'.w == d.store.height && d'.h == d.store.width
    ensures d'.rotation % 2 == 0 ==> d'.w == d.store.width && d'.h == d.store.height
    ensures d'.trace == d.trace + [Cmd(AddressingMode.Code()), Data([Madctl(d'.rotation)])]
    ensures d'.store == d.store && d'.hasCs == d.hasCs && d'.expander == d.expander
  {
    var rot := r % 4;
    var size := LogicalSize(d.store.width, d.store.height, rot);
    WriteReg(d.(rotation := rot, w := size.0, h := size.1), AddressingMode, [Madctl(rot)])
  }

  /** Rotations that differ by a multiple of four are the same rotation. */
  lemma RotationPeriodic(d: Display, r: int, k: int)
    requires PS.Valid(d.store)
    ensures SetRotation(d, r + 4 * k) == SetRotation(d, r)
  {
    assert (r + 4 * k) % 4 == r % 4;
  }

  /** The logical area is always the physical one. */
  lemma RotationKeepsArea(d: Display, r: int)
    requires PS.Valid(d.store)
    ensures var d' := SetRotation(d, r); d'.w * d'.h == d.store.width * d.store.height
  {
  }

  // -----------------------------------------------------------------------
  // Window addressing

  /** A programmed window as the controller decodes it: inclusive start and
      end column, then start and end row. */
  datatype Window = Window(xStart: int, xEnd: int, yStart: int, yEnd: int)

  /** A big-endian start/end pair as CASET and RASET carry it. */
  function Span(start: int, end: int): seq<Byte> {
    [Hi(start), Lo(start), Hi(end), Lo(end)]
  }

  /** The events of `set_window(x, y, w, h)`. */
  function WindowEvents(x: int, y: int, w: int, h: int): seq<Event> {
    [Cmd(ColumnAddressSet.Code()), Data(Span(x, x + w - 1)),
     Cmd(RowAddressSet.Code()), Data(Span(y, y + h - 1)),
     Cmd(MemoryWrite.Code())]
  }

  /** The controller's reading of a big-endian 16-bit value. */
  function Word(hi: Byte, lo: Byte): int {
    hi as int * 256 + lo as int
  }

  /** How the controller reads a CASET, RASET, RAMWR sequence. */
  function DecodeWindow(evs: seq<Event>): Option<Window> {
    if && |evs| == 5
       && evs[0] == Cmd(ColumnAddressSet.Code()) && evs[1].Data? && |evs[1].bytes| == 4
       && evs[2] == Cmd(RowAddressSet.Code()) && evs[3].Data? && |evs[3].bytes| == 4
       && evs[4] == Cmd(MemoryWrite.Code())
    then
      var c, r := evs[1].bytes, evs[3].bytes;
      Some(Window(Word(c[0], c[1]), Word(c[2], c[3]), Word(r[0], r[1]), Word(r[2], r[3])))
    else None
  }

  lemma WordOfHiLo(v: int)
    ensures Word(Hi(v), Lo(v)) == v % 65536
  {
    SplitJoin(v);
    JoinIsSum(Hi(v), Lo(v));
  }

  /** `set_window`: appends CASET, RASET and RAMWR and changes nothing else. */
  function SetWindow(d: Display, x: int, y: int, w: int, h: int): (d': Display)
    ensures d' == d.(trace := d.trace + WindowEvents(x, y, w, h))
  {
    var d1 := WriteReg(d, ColumnAddressSet, Span(x, x + w - 1));
    var d2 := WriteReg(d1, RowAddressSet, Span(y, y + h - 1));
    WriteCmd(d2, MemoryWrite)
  }

  /** The controller decodes the window back to its corners modulo 2^16 (the
      driver does no range check), and the three commands come in order. */
  lemma WindowDecodes(x: int, y: int, w: int, h: int)
    ensures DecodeWindow(WindowEvents(x, y, w, h))
         == Some(Window(x % 65536, (x + w - 1) % 65536, y % 65536, (y + h - 1) % 65536))
    ensures Commands(WindowEvents(x, y, w, h)) == [0x2A, 0x2B, 0x2C]
  {
    WordOfHiLo(x);
    WordOfHiLo(x + w - 1);
    WordOfHiLo(y);
    WordOfHiLo(y + h - 1);
    WindowCommands(Span(x, x + w - 1), Span(y, y + h - 1));
  }

  /** A value that fits in 16 bits is its own residue. */
  lemma Fits16(v: int)
    requires 0 <= v <= 0xFFFF
    ensures v % 65536 == v
  {
    DivModUnique(v, 65536, 0, v);
  }

  /** For coordinates in 0..65535 the window decodes to exactly the corners. */
  lemma WindowRoundTrip(d: Display, x: int, y: int, w: int, h: int)
    requires 0 <= x <= 0xFFFF && 0 <= x + w - 1 <= 0xFFFF
    requires 0 <= y <= 0xFFFF && 0 <= y + h - 1 <= 0xFFFF
    ensures var d' := SetWindow(d, x, y, w, h);
      DecodeWindow(d'.trace[|d.trace|..]) == Some(Window(x, x + w - 1, y, y + h - 1))
  {
    var evs := WindowEvents(x, y, w, h);
    assert DecodeWindow(evs) == Some(Window(x % 65536, (x + w - 1) % 65536, y % 65536, (y + h - 1) % 65536)) by {
      WindowDecodes(x, y, w, h);
    }
    Fits16(x);
    Fits16(x + w - 1);
    Fits16(y);
    Fits16(y + h - 1);
    assert (d.trace + evs)[|d.trace|..] == evs;
  }

  /** `set_window(10, 20, 30, 40)` sends [0, 10, 0, 39] and [0, 20, 0, 59]. */
  lemma WindowExample()
    ensures WindowEvents(10, 20, 30, 40)
         == [Cmd(0x2A), Data([0x00, 0x0A, 0x00, 0x27]), Cmd(0x2B), Data([0x00, 0x14, 0x00, 0x3B]), Cmd(0x2C)]
  {
  }

  // -----------------------------------------------------------------------
  // Refresh

  /** One SPI data write per chunk. */
  function ChunkEvents(cs: seq<seq<Byte>>): (evs: seq<Event>)
    ensures |evs| == |cs| && forall i :: 0 <= i < |cs| ==> evs[i] == Data(cs[i])
  {
    seq(|cs|, i requires 0 <= i < |cs| => Data(cs[i]))
  }

  lemma {:induction false} PayloadOfChunks(cs: seq<seq<Byte>>)
    ensures Payload(ChunkEvents(cs)) == Flatten(cs)
    ensures Commands(ChunkEvents(cs)) == []
  {
    if |cs| > 0 {
      assert ChunkEvents(cs)[1..] == ChunkEvents(cs[1..]);
      PayloadOfChunks(cs[1..]);
    }
  }

  /** The data writes of a refresh of the buffer `bytes`. */
  function FrameEvents(bytes: seq<Byte>): seq<Event>
  {
    ChunkEvents(Chunks(bytes, ChunkSize))
  }

  /** `show`: programs the whole physical window, whatever the rotation,
      then streams the buffer. Chip-select is toggled only when there is a
      chip-select pin, as the other writes do; see `ShowAsWritten` for the
      driver's own version. */
  function Show(d: Display): (d': Display)
    requires PS.Valid(d.store)
    ensures d' == d.(trace := d'.trace)
    ensures d'.trace == SetWindow(d, 0, 0, d.store.width, d.store.height).trace + FrameEvents(d.store.bytes)
  {
    var d1 := SetWindow(d, 0, 0, d.store.width, d.store.height);
    d1.(trace := d1.trace + FrameEvents(d.store.bytes))
  }

  /** The data writes of a refresh: at most `ChunkSize` whole pixels each,
      carrying the buffer with every pixel's bytes swapped, so the panel
      recovers the buffer exactly. */
  lemma FrameCarriesBuffer(bytes: seq<Byte>)
    requires |bytes| % 2 == 0
    ensures var data := FrameEvents(bytes);
      && (forall i :: 0 <= i < |data| ==> data[i].Data? && 0 < |data[i].bytes| <= ChunkSize && |data[i].bytes| % 2 == 0)
      && Payload(data) == SwapPairs(bytes)
      && SwapPairs(Payload(data)) == bytes
      && Commands(data) == []
  {
    PayloadOfChunks(Chunks(bytes, ChunkSize));
    ChunkSizes(bytes, ChunkSize);
    ChunksWholePixels(bytes, ChunkSize);
    ChunksFlatten(bytes, ChunkSize);
    ChunksRoundTrip(bytes, ChunkSize);
  }

  /** A refresh programs the whole physical window and then streams the
      buffer, whatever the rotation. */
  lemma ShowStreamsBuffer(d: Display)
    requires PS.Valid(d.store)
    ensures var t := Show(d).trace;
      && |t| >= |d.trace| + 5
      && t[..|d.trace|] == d.trace
      && t[|d.trace|..|d.trace| + 5] == WindowEvents(0, 0, d.store.width, d.store.height)
      && t[|d.trace| + 5..] == FrameEvents(d.store.bytes)
      && Payload(t[|d.trace| + 5..]) == SwapPairs(d.store.bytes)
  {
    var t := Show(d).trace;
    var n := |d.trace|;
    var win := WindowEvents(0, 0, d.store.width, d.store.height);
    var data := FrameEvents(d.store.bytes);
    assert t == d.trace + win + data;
    assert t[n..n + 5] == win;
    assert t[n + 5..] == data;
    PS.EvenLength(d.store);
    FrameCarriesBuffer(d.store.bytes);
  }

  /** `show` as the driver writes it: `self.cs(0)` is called without the
      check the other writes make, so with no chip-select pin the refresh
      raises after the window has been programmed and before any pixel data. */
  function ShowAsWritten(d: Display): (s: Step<Display, ()>)
    requires PS.Valid(d.store)
    ensures !d.hasCs ==> s == Step(SetWindow(d, 0, 0, d.store.width, d.store.height), Err(NoChipSelect))
    ensures d.hasCs ==> s == Step(Show(d), Ok(()))
  {
    var d1 := SetWindow(d, 0, 0, d.store.width, d.store.height);
    if !d.hasCs then Step(d1, Err(NoChipSelect))
    else Step(d1.(trace := d1.trace + FrameEvents(d.store.bytes)), Ok(()))
  }

  /** The data a refresh puts on the wire depends only on the buffer, not on
      the chip-select pin or the rotation. */
  lemma ShowIgnoresChipSelectAndRotation(d: Display, cs: bool, r: int, w: int, h: int)
    requires PS.Valid(d.store)
    ensures Show(d.(hasCs := cs, rotation := r, w := w, h := h)).trace == Show(d).trace
  {
  }

  // -----------------------------------------------------------------------
  // Drawing

  /** `pixel`. */
  function Pixel(d: Display, x: int, y: int, c: int): Display
    requires PS.Valid(d.store)
  {
    d.(store := PS.SetPixel(d.store, x, y, c))
  }

  // -----------------------------------------------------------------------
  // Reset and backlight through the expander

  /** The expander's side of a reset pulse when its port-1 cache holds a
      byte: output port 1 is written twice, first with pin 10 low and then
      with it high, and both values differ from the old port 1 in that bit
      only. */
  ghost predicate Pulsed(x: X.Expander, y: X.Expander) {
    var n := |x.log|;
    && IsByte(y.output.p1)
    && |y.log| == n + 2 && y.log[..n] == x.log
    && y.log[n].RegWrite? && y.log[n].reg == X.RegOutput0 + 1
    && BitOf(y.log[n].value, PinReset % 8) == 0
    && (forall b: nat :: b != PinReset % 8 ==> BitOf(y.log[n].value, b) == BitOf(x.output.p1, b))
    && y.log[n + 1] == RegWrite(X.RegOutput0 + 1, y.output.p1)
    && BitOf(y.output.p1, PinReset % 8) == 1
  }

  /** Pin 10 low, then high: the reset pulse (the delays are not modelled).
      Whatever the caches hold, only pin 10's bit of port 1 moves. The pulse
      succeeds exactly when the port-1 cache is a byte; otherwise the first
      write raises after the cache has taken the low level. */
  function PulseReset(x: X.Expander): (s: Step<X.Expander, ()>)
    ensures s.state.output.p0 == x.output.p0 && s.state.config == x.config
    ensures forall b: nat :: b != PinReset % 8 ==> BitOf(s.state.output.p1, b) == BitOf(x.output.p1, b)
    ensures s.out.Ok? <==> IsByte(x.output.p1)
    ensures IsByte(x.output.p1) ==> Pulsed(x, s.state)
    ensures !IsByte(x.output.p1) ==> s.out == Err(BadByte) && X.Driven(x, s.state, PinReset, false)
  {
    var s1 := X.WritePin(x, PinReset, false);
    if s1.out.Err? then s1 else
    var s2 := X.WritePin(s1.state, PinReset, true);
    assert s2.state.log[..|x.log|] == x.log && s2.state.log[|x.log|] == s1.state.log[|x.log|];
    s2
  }

  /** `reset`: a configuration error without an expander, and then nothing
      is written; otherwise the reset pulse on the expander, with no SPI
      traffic. */
  function Reset(d: Display): (s: Step<Display, ()>)
    ensures d.expander.None? ==> s == Step(d, Err(ResetUnavailable))
    ensures d.expander.Some? ==>
      var p := PulseReset(d.expander.value);
      s == Step(d.(expander := Some(p.state)), p.out)
    ensures d.expander.Some? ==>
      s.state.trace == d.trace && (s.out.Ok? <==> IsByte(d.expander.value.output.p1))
  {
    match d.expander
    case None => Step(d, Err(ResetUnavailable))
    case Some(x) =>
      var p := PulseReset(x);
      Step(d.(expander := Some(p.state)), p.out)
  }

  /** `set_backlight`: drives pin 11 when there is an expander; otherwise
      only the warning, and nothing changes. */
  function SetBacklight(d: Display, on: bool): (s: Step<Display, Backlight>)
    ensures s.state == d.(expander := s.state.expander)
    ensures d.expander.None? ==> s == Step(d, Ok(Unavailable))
    ensures d.expander.Some? ==>
      && s.state.expander.Some?
      && X.Driven(d.expander.value, s.state.expander.value, PinBacklight, on)
      && (s.out.Ok? <==> IsByte(d.expander.value.output.p1))
      && (s.out.Ok? <==> IsByte(s.state.expander.value.output.p1))
      && (s.out.Ok? ==> s.out.value == Switched)
      && (s.out.Err? ==> s.out.error == BadByte)
    ensures d.expander.Some? && X.Valid(d.expander.value) ==>
      s.out == Ok(Switched) && X.Valid(s.state.expander.value)
  {
    match d.expander
    case None => Step(d, Ok(Unavailable))
    case Some(x) =>
      var w := X.WritePin(x, PinBacklight, on);
      Step(d.(expander := Some(w.state)), if w.out.Ok? then Ok(Switched) else Err(w.out.error))
  }

  // -----------------------------------------------------------------------
  // Initialisation

  /** The display after the steps of `init_display` that precede the
      refresh: the requested rotation, exactly `InitCommands` on SPI, and a
      black frame buffer of the original size. */
  ghost predicate Configured(d: Display, p: Display, rotation: int) {
    && Valid(p)
    && p.rotation == rotation % 4 && p.hasCs == d.hasCs
    && p.trace == d.trace + InitCommands(rotation % 4)
    && p.store.width == d.store.width && p.store.height == d.store.height
    && (forall k :: 0 <= k < |p.store.bytes| ==> p.store.bytes[k] == 0)
    && (forall i, j :: PS.InBounds(p.store, i, j) ==> PS.PixelAt(p.store, i, j) == 0)
  }

  /** Whether an expander can take initialisation: none at all, or one whose
      port-1 cache holds a byte, since every write of `init_display` goes to
      output port 1. */
  predicate Ready(e: Option<X.Expander>) {
    e.None? || IsByte(e.value.output.p1)
  }

  /** What initialisation does to an expander whose port-1 cache is a byte:
      output port 1 is written three times (reset low, reset high, backlight
      on), the two pulse values differ from the old port 1 in pin 10's bit
      only, and the port ends with pins 10 and 11 high and every other bit as
      it was; port 0 and the directions are unchanged. */
  ghost predicate InitPulse(x: X.Expander, y: X.Expander) {
    var n := |x.log|;
    && IsByte(y.output.p1)
    && |y.log| == n + 3 && y.log[..n] == x.log
    && y.log[n].RegWrite? && y.log[n].reg == X.RegOutput0 + 1
    && y.log[n + 1].RegWrite? && y.log[n + 1].reg == X.RegOutput0 + 1
    && BitOf(y.log[n].value, PinReset % 8) == 0 && BitOf(y.log[n + 1].value, PinReset % 8) == 1
    && (forall b: nat :: b != PinReset % 8 ==>
          BitOf(y.log[n].value, b) == BitOf(x.output.p1, b) && BitOf(y.log[n + 1].value, b) == BitOf(x.output.p1, b))
    && y.log[n + 2] == RegWrite(X.RegOutput0 + 1, y.output.p1)
    && BitOf(y.output.p1, PinReset % 8) == 1 && BitOf(y.output.p1, PinBacklight % 8) == 1
    && (forall b: nat :: b != PinReset % 8 && b != PinBacklight % 8 ==>
          BitOf(y.output.p1, b) == BitOf(x.output.p1, b))
    && y.output.p0 == x.output.p0 && y.config == x.config
  }

  /** The expander across initialisation: none stays none; one whose port-1
      cache is a byte has taken the reset pulse and the backlight-on write;
      for any other, the first reset write raised after the cache took pin
      10 low, and nothing reached the chip. */
  ghost predicate ExpanderInitialised(before: Option<X.Expander>, after: Option<X.Expander>) {
    match before
    case None => after.None?
    case Some(x) =>
      && after.Some?
      && (IsByte(x.output.p1) ==> InitPulse(x, after.value))
      && (!IsByte(x.output.p1) ==> X.Driven(x, after.value, PinReset, false))
  }

  /** The part of `init_display` before the refresh: the reset pulse when
      there is an expander, then `Configure`. It fails only when the reset
      pulse does, before anything is sent on SPI. */
  function Prepare(d: Display, rotation: int): (s: Step<Display, ()>)
    requires PS.Valid(d.store)
    ensures s.out.Ok? <==> Ready(d.expander)
    ensures s.out.Ok? ==> Configured(d, s.state, rotation)
    ensures s.out.Err? ==> s.out.error == BadByte && s.state == d.(expander := s.state.expander)
    ensures ExpanderInitialised(d.expander, s.state.expander)
  {
    match d.expander
    case None => Configure(d, rotation)
    case Some(x) =>
      var p := PulseReset(x);
      if p.out.Err? then Step(d.(expander := Some(p.state)), Err(p.out.error))
      else
        var c := Configure(d.(expander := Some(p.state)), rotation);
        assert c.out.Ok?;
        PulseThenBacklight(x, p.state, c.state.expander.value);
        c
  }

  /** The commands after the reset pulse, then backlight on and a black
      frame buffer. The backlight write can raise, and then the commands
      have already gone out. */
  function Configure(d: Display, rotation: int): (s: Step<Display, ()>)
    requires PS.Valid(d.store)
    ensures s.out.Ok? <==> Ready(d.expander)
    ensures s.out.Ok? ==> Configured(d, s.state, rotation)
    ensures s.out.Err? ==> s.out.error == BadByte && s.state.trace == d.trace + InitCommands(rotation % 4)
    ensures d.expander.None? ==> s.state.expander.None?
    ensures d.expander.Some? ==>
      && s.state.expander.Some?
      && X.Driven(d.expander.value, s.state.expander.value, PinBacklight, true)
      && (s.out.Ok? <==> IsByte(s.state.expander.value.output.p1))
    ensures d.expander.Some? && X.Valid(d.expander.value) ==> X.Valid(s.state.expander.value)
  {
    var b := SetBacklight(Wake(d, rotation), true);
    if b.out.Err? then Step(b.state, Err(b.out.error))
    else Step(b.state.(store := PS.Fill(b.state.store, Black)), Ok(()))
  }

  /** The reset pulse followed by the backlight-on write is `InitPulse`. */
  lemma PulseThenBacklight(x: X.Expander, m: X.Expander, y: X.Expander)
    requires IsByte(x.output.p1) && Pulsed(x, m)
    requires m.output.p0 == x.output.p0 && m.config == x.config
    requires forall b: nat :: b != PinReset % 8 ==> BitOf(m.output.p1, b) == BitOf(x.output.p1, b)
    requires IsByte(y.output.p1) && X.Driven(m, y, PinBacklight, true)
    ensures InitPulse(x, y)
  {
  }

  /** Sleep out, 16-bit colour, inversion on, the rotation and display on:
      exactly `InitCommands`, touching nothing but the trace and the
      orientation. */
  function Wake(d: Display, rotation: int): (d': Display)
    requires PS.Valid(d.store)
    ensures Valid(d') && d'.rotation == rotation % 4
    ensures d'.trace == d.trace + InitCommands(rotation % 4)
    ensures d'.store == d.store && d'.expander == d.expander && d'.hasCs == d.hasCs
  {
    var d1 := WriteCmd(d, SleepOut);
    var d2 := WriteReg(d1, ColorMode, [Rgb565Mode]);
    var d3 := WriteCmd(d2, InversionOn);
    var d4 := SetRotation(d3, rotation);
    var d5 := WriteCmd(d4, DisplayOn);
    assert d5.trace == d.trace + InitCommands(rotation % 4);
    d5
  }

  /** The SPI events of an initialisation before the refresh. */
  function InitCommands(rotation: int): seq<Event>
    requires 0 <= rotation < 4
  {
    [Cmd(SleepOut.Code()), Cmd(ColorMode.Code()), Data([Rgb565Mode]), Cmd(InversionOn.Code()),
     Cmd(AddressingMode.Code()), Data([Madctl(rotation)]), Cmd(DisplayOn.Code())]
  }

  /** The window's three command codes, whatever its coordinates. */
  lemma WindowCommands(p: seq<Byte>, q: seq<Byte>)
    ensures Commands([Cmd(ColumnAddressSet.Code()), Data(p), Cmd(RowAddressSet.Code()), Data(q), Cmd(MemoryWrite.Code())])
         == [0x2A, 0x2B, 0x2C]
  {
    var s := [Cmd(ColumnAddressSet.Code()), Data(p), Cmd(RowAddressSet.Code()), Data(q), Cmd(MemoryWrite.Code())];
    assert s[1..] == [s[1]] + s[2..];
    assert s[3..] == [s[3]] + s[4..];
    CommandsAppend([s[1]], s[2..]);
    CommandsAppend([s[3]], s[4..]);
  }

  /** The command codes a refresh sends: the window, then only data. */
  lemma ShowCommands(d: Display)
    requires PS.Valid(d.store)
    ensures var t := Show(d).trace;
      |t| >= |d.trace| + 5 && t[..|d.trace|] == d.trace
      && Commands(t[|d.trace|..]) == [0x2A, 0x2B, 0x2C]
  {
    var t := Show(d).trace;
    var win := WindowEvents(0, 0, d.store.width, d.store.height);
    var data := FrameEvents(d.store.bytes);
    assert t == d.trace + win + data;
    assert t[|d.trace|..] == win + data;
    CommandsAppend(win, data);
    WindowCommands(Span(0, d.store.width - 1), Span(0, d.store.height - 1));
    PayloadOfChunks(Chunks(d.store.bytes, ChunkSize));
  }

  lemma InitCommandCodes(rotation: int)
    requires 0 <= rotation < 4
    ensures Commands(InitCommands(rotation)) == [0x11, 0x3A, 0x21, 0x36, 0x29]
  {
    var s := InitCommands(rotation);
    assert s == [s[0]] + [s[1]] + [s[2]] + [s[3]] + [s[4]] + [s[5]] + [s[6]];
    CommandsAppend([s[0]], s[1..]);
    CommandsAppend([s[1]], s[2..]);
    CommandsAppend([s[2]], s[3..]);
    CommandsAppend([s[3]], s[4..]);
    CommandsAppend([s[4]], s[5..]);
    CommandsAppend([s[5]], s[6..]);
    assert s[1..] == [s[1]] + s[2..];
    assert s[2..] == [s[2]] + s[3..];
    assert s[3..] == [s[3]] + s[4..];
    assert s[4..] == [s[4]] + s[5..];
    assert s[5..] == [s[5]] + s[6..];
    assert s == [s[0]] + s[1..];
  }

  /** A display just initialised after the SPI traffic `pre`: the requested
      rotation, a black buffer of the given size, and a trace that continues
      `pre` with the configuration commands, the full window and the frame,
      so that its command codes are SLPOUT, COLMOD, INVON, MADCTL, DISPON,
      CASET, RASET, RAMWR and the data after RAMWR is the buffer with each
      pixel's bytes swapped. */
  ghost predicate Initialised(pre: seq<Event>, p: Display, width: nat, height: nat, hasCs: bool, rotation: int) {
    && Valid(p)
    && p.rotation == rotation % 4
    && p.hasCs == hasCs
    && p.store.width == width && p.store.height == height
    && (forall i, j :: PS.InBounds(p.store, i, j) ==> PS.PixelAt(p.store, i, j) == 0)
    && (forall k :: 0 <= k < |p.store.bytes| ==> p.store.bytes[k] == 0)
    && p.trace == pre + InitCommands(rotation % 4) + WindowEvents(0, 0, width, height) + FrameEvents(p.store.bytes)
    && Commands(p.trace[|pre|..]) == [0x11, 0x3A, 0x21, 0x36, 0x29, 0x2A, 0x2B, 0x2C]
    && Payload(p.trace[|pre| + 12..]) == SwapPairs(p.store.bytes)
  }

  /** `init_display`: `Prepare`, then the refresh. With no expander, or one
      whose port-1 cache is a byte, it succeeds: the panel sees sleep out,
      colour mode, inversion on, addressing mode, display on, then the full
      window and the whole black frame, and the expander takes the reset
      pulse and the backlight-on write. Otherwise the reset pulse raises
      before anything is sent on SPI. */
  function InitDisplay(d: Display, rotation: int): (s: Step<Display, ()>)
    requires PS.Valid(d.store)
    ensures s.out.Ok? <==> Ready(d.expander)
    ensures s.out.Ok? ==> Initialised(d.trace, s.state, d.store.width, d.store.height, d.hasCs, rotation)
    ensures s.out.Err? ==> s.out.error == BadByte && s.state == d.(expander := s.state.expander)
    ensures ExpanderInitialised(d.expander, s.state.expander)
  {
    var p := Prepare(d, rotation);
    if p.out.Err? then p
    else
      InitFrame(d, p.state, rotation % 4);
      Step(Show(p.state), Ok(()))
  }

  /** The refresh after the configuration commands: the whole SPI traffic of
      an initialisation, its command codes and its pixel data. */
  lemma InitFrame(d: Display, p: Display, rotation: int)
    requires 0 <= rotation < 4 && PS.Valid(p.store)
    requires p.trace == d.trace + InitCommands(rotation)
    ensures var t := Show(p).trace;
      && t == d.trace + InitCommands(rotation)
           + WindowEvents(0, 0, p.store.width, p.store.height) + FrameEvents(p.store.bytes)
      && Commands(t[|d.trace|..]) == [0x11, 0x3A, 0x21, 0x36, 0x29, 0x2A, 0x2B, 0x2C]
      && Payload(t[|d.trace| + 12..]) == SwapPairs(p.store.bytes)
  {
    var i := InitCommands(rotation);
    var w := WindowEvents(0, 0, p.store.width, p.store.height);
    var f := FrameEvents(p.store.bytes);
    assert Show(p).trace == d.trace + i + w + f;
    InitCommandCodes(rotation);
    assert Commands(w) == [0x2A, 0x2B, 0x2C] by {
      WindowDecodes(0, 0, p.store.width, p.store.height);
    }
    PS.EvenLength(p.store);
    FrameCarriesBuffer(p.store.bytes);
    InitSegments(d.trace, i, w, f);
  }

  /** Cutting an initialisation trace into its configuration commands, its
      window and its frame. */
  lemma InitSegments(pre: seq<Event>, i: seq<Event>, w: seq<Event>, f: seq<Event>)
    requires |i| == 7 && |w| == 5
    ensures Commands((pre + i + w + f)[|pre|..]) == Commands(i) + Commands(w) + Commands(f)
    ensures (pre + i + w + f)[|pre| + 12..] == f
  {
    assert (pre + i + w + f)[|pre|..] == i + (w + f);
    CommandsAppend(i, w + f);
    CommandsAppend(w, f);
  }

  /** `init_display` with the driver's own refresh: without a chip-select
      pin it raises after the configuration commands and the window have
      gone out, with the expander already initialised. */
  function InitDisplayAsWritten(d: Display, rotation: int): (s: Step<Display, ()>)
    requires PS.Valid(d.store)
    ensures d.hasCs ==> s == InitDisplay(d, rotation)
    ensures !d.hasCs ==> s.out.Err?
    ensures !d.hasCs && Ready(d.expander) ==>
      && s.out == Err(NoChipSelect)
      && s.state.trace == d.trace + InitCommands(rotation % 4) + WindowEvents(0, 0, d.store.width, d.store.height)
    ensures ExpanderInitialised(d.expander, s.state.expander)
  {
    var p := Prepare(d, rotation);
    if p.out.Err? then p else ShowAsWritten(p.state)
  }

  /** The constructor: a zeroed buffer of `width * height * 2` bytes, then
      `init_display`; the panel receives the whole initialisation sequence
      and a black frame of the full size. The display exists only when
      `init_display` returns, but the expander is the caller's own object,
      so what `init_display` did to it remains on every path: the result
      pairs that expander with the display or the error. */
  function Create(width: nat, height: nat, rotation: int, hasCs: bool, expander: Option<X.Expander>): (s: Step<Option<X.Expander>, Display>)
    ensures s.out.Ok? <==> Ready(expander)
    ensures s.out.Err? ==> s.out.error == BadByte
    ensures s.out.Ok? ==>
      && Initialised([], s.out.value, width, height, hasCs, rotation)
      && |s.out.value.store.bytes| == width * height * 2
      && s.out.value.expander == s.state
    ensures ExpanderInitialised(expander, s.state)
  {
    var d := Display(PS.Alloc(width, height), 0, 0, 0, hasCs, expander, []);
    var i := InitDisplay(d, rotation);
    Step(i.state.expander, if i.out.Err? then Err(i.out.error) else Ok(i.state))
  }

  /** The driver's constructor, with its own refresh. */
  function CreateAsWritten(width: nat, height: nat, rotation: int, hasCs: bool, expander: Option<X.Expander>): (s: Step<Option<X.Expander>, Display>)
    ensures hasCs ==> s == Create(width, height, rotation, hasCs, expander)
    ensures ExpanderInitialised(expander, s.state)
  {
    var d := Display(PS.Alloc(width, height), 0, 0, 0, hasCs, expander, []);
    var i := InitDisplayAsWritten(d, rotation);
    Step(i.state.expander, if i.out.Err? then Err(i.out.error) else Ok(i.state))
  }

  /** With the default `cs=None` the driver's constructor always raises, and
      the caller's expander has nevertheless taken the reset pulse and the
      backlight-on write; the corrected refresh lets construction finish. */
  lemma DefaultChipSelectBreaksConstructor(width: nat, height: nat, rotation: int, expander: Option<X.Expander>)
    requires Ready(expander)
    ensures CreateAsWritten(width, height, rotation, false, expander).out == Err(NoChipSelect)
    ensures ExpanderInitialised(expander, CreateAsWritten(width, height, rotation, false, expander).state)
    ensures Create(width, height, rotation, false, expander).out.Ok?
  {
  }

  /** The smallest instance: a 240x320 panel without expander or chip select. */
  lemma DefaultChipSelectExample()
    ensures CreateAsWritten(240, 320, 0, false, None).out == Err(NoChipSelect)
    ensures Create(240, 320, 0, false, None).out.Ok?
  {
    DefaultChipSelectBreaksConstructor(240, 320, 0, None);
  }

  // -----------------------------------------------------------------------
  // The frame buffer never changes size

  /** The public operations of a constructed display. */
  datatype Op =
    | DrawPixel(x: int, y: int, c: int)
    | DrawRect(x: int, y: int, w: int, h: int, c: int)
    | Clear(c: int)
    | Rotate(r: int)
    | Address(x: int, y: int, w: int, h: int)
    | Refresh
    | ResetPanel
    | Backlight(on: bool)

  function Apply(d: Display, op: Op): (d': Display)
    requires Valid(d)
    ensures Valid(d')
    ensures d'.store.width == d.store.width && d'.store.height == d.store.height
  {
    match op
    case DrawPixel(x, y, c) => Pixel(d, x, y, c)
    case DrawRect(x, y, w, h, c) => d.(store := PS.FillRect(d.store, x, y, w, h, c))
    case Clear(c) => d.(store := PS.Fill(d.store, c))
    case Rotate(r) => SetRotation(d, r)
    case Address(x, y, w, h) => SetWindow(d, x, y, w, h)
    case Refresh => Show(d)
    case ResetPanel => Reset(d).state
    case Backlight(on) => SetBacklight(d, on).state
  }

  function Run(d: Display, ops: seq<Op>): Display
    requires Valid(d)
    decreases |ops|
  {
    if |ops| == 0 then d else Run(Apply(d, ops[0]), ops[1..])
  }

  /** Whatever the driver is asked to do, the frame buffer keeps the
      physical size it was allocated with: `width * height * 2` bytes. */
  lemma {:induction false} RunKeepsBuffer(d: Display, ops: seq<Op>)
    requires Valid(d)
    ensures var r := Run(d, ops);
      && Valid(r)
      && r.store.width == d.store.width && r.store.height == d.store.height
      && |r.store.bytes| == d.store.width * d.store.height * 2
    decreases |ops|
  {
    if |ops| > 0 {
      RunKeepsBuffer(Apply(d, ops[0]), ops[1..]);
    }
  }
}

=== FILE: transfer.dfy ===
/** The refresh pipeline's byte work: the frame buffer stores each 16-bit
    pixel low byte first, the panel expects it high byte first, so the
    buffer is streamed in chunks of at most `ChunkSize` bytes with the two
    bytes of every pixel exchanged. */
module Transfer {
  import opened Bits

  /** Bytes per SPI write during a refresh (256 pixels). */
  const ChunkSize: nat := 512

  /** Exchanges the two bytes of every pixel: little-endian to big-endian.
      The frame buffer always holds whole pixels; a trailing odd byte, which
      never occurs, is left where it is. */
  function SwapPairs(s: seq<Byte>): (r: seq<Byte>)
    ensures |r| == |s|
  {
    if |s| < 2 then s else [s[1], s[0]] + SwapPairs(s[2..])
  }

  /** Pixel `p` of the result holds pixel `p` of the input, high byte first. */
  lemma {:induction false} SwapPairsPixel(s: seq<Byte>, p: nat)
    requires 2 * p + 1 < |s|
    ensures SwapPairs(s)[2 * p] == s[2 * p + 1] && SwapPairs(s)[2 * p + 1] == s[2 * p]
  {
    if p > 0 {
      SwapPairsPixel(s[2..], p - 1);
    }
  }

  /** Concatenation of the written chunks, as the panel receives them. */
  function Flatten(cs: seq<seq<Byte>>): seq<Byte>
  {
    if |cs| == 0 then [] else cs[0] + Flatten(cs[1..])
  }

  /** Swapping is its own inverse: the receiver recovers the buffer. */
  lemma {:induction false} SwapPairsInvolutive(s: seq<Byte>)
    ensures SwapPairs(SwapPairs(s)) == s
  {
    if |s| >= 2 {
      var r := SwapPairs(s);
      assert r[2..] == SwapPairs(s[2..]);
      SwapPairsInvolutive(s[2..]);
      assert s == [s[0], s[1]] + s[2..];
    }
  }

  /** Swapping works pixel by pixel, so it distributes over a split after
      whole pixels. */
  lemma {:induction false} SwapPairsAppend(a: seq<Byte>, b: seq<Byte>)
    requires |a| % 2 == 0
    ensures SwapPairs(a + b) == SwapPairs(a) + SwapPairs(b)
  {
    if |a| == 0 {
      assert a + b == b;
    } else {
      assert (a + b)[2..] == a[2..] + b;
      SwapPairsAppend(a[2..], b);
    }
  }

  /** Swapping one more pixel at the end of a prefix. */
  lemma SwapPairsStep(s: seq<Byte>, j: nat)
    requires j % 2 == 0 && j + 2 <= |s|
    ensures SwapPairs(s[..j + 2]) == SwapPairs(s[..j]) + [s[j + 1], s[j]]
  {
    assert s[..j + 2] == s[..j] + [s[j], s[j + 1]];
    SwapPairsAppend(s[..j], [s[j], s[j + 1]]);
  }

  /** The chunks a refresh writes: consecutive slices of `size` bytes (the
      last one possibly shorter), each with its pixels byte-swapped. */
  function Chunks(buf: seq<Byte>, size: nat): seq<seq<Byte>>
    requires size > 0
    decreases |buf|
  {
    if |buf| == 0 then []
    else
      var e := if |buf| < size then |buf| else size;
      [SwapPairs(buf[..e])] + Chunks(buf[e..], size)
  }

  /** Every chunk is non-empty and at most `size` bytes, all but the last
      are exactly `size` bytes, and an empty buffer sends nothing. */
  lemma {:induction false} ChunkSizes(buf: seq<Byte>, size: nat)
    requires size > 0
    ensures forall i :: 0 <= i < |Chunks(buf, size)| ==> 0 < |Chunks(buf, size)[i]| <= size
    ensures forall i :: 0 <= i < |Chunks(buf, size)| - 1 ==> |Chunks(buf, size)[i]| == size
    ensures |buf| == 0 <==> |Chunks(buf, size)| == 0
    decreases |buf|
  {
    if |buf| > 0 {
      var e := if |buf| < size then |buf| else size;
      ChunkSizes(buf[e..], size);
      var cs, rest := Chunks(buf, size), Chunks(buf[e..], size);
      assert cs == [SwapPairs(buf[..e])] + rest;
      assert forall i :: 1 <= i < |cs| ==> cs[i] == rest[i - 1];
    }
  }

  /** A buffer of whole pixels is cut into chunks of whole pixels. */
  lemma {:induction false} ChunksWholePixels(buf: seq<Byte>, size: nat)
    requires size > 0 && size % 2 == 0 && |buf| % 2 == 0
    ensures forall i :: 0 <= i < |Chunks(buf, size)| ==> |Chunks(buf, size)[i]| % 2 == 0
    decreases |buf|
  {
    if |buf| > 0 {
      var e := if |buf| < size then |buf| else size;
      EvenSub(|buf|, e);
      ChunksWholePixels(buf[e..], size);
      var cs, rest := Chunks(buf, size), Chunks(buf[e..], size);
      assert cs == [SwapPairs(buf[..e])] + rest;
      forall i | 0 <= i < |cs|
        ensures |cs[i]| % 2 == 0
      {
        if i > 0 {
          assert cs[i] == rest[i - 1];
        } else {
          assert |cs[0]| == e;
        }
      }
    }
  }

  /** The chunks, written one after the other, are the swapped buffer. */
  lemma {:induction false} ChunksFlatten(buf: seq<Byte>, size: nat)
    requires size > 0 && size % 2 == 0
    ensures Flatten(Chunks(buf, size)) == SwapPairs(buf)
    decreases |buf|
  {
    if |buf| > 0 {
      var e := if |buf| < size then |buf| else size;
      var first, rest := SwapPairs(buf[..e]), Chunks(buf[e..], size);
      ChunksFlatten(buf[e..], size);
      assert ([first] + rest)[1..] == rest;
      assert Flatten(Chunks(buf, size)) == first + Flatten(rest);
      if e == size {
        SwapPairsAppend(buf[..e], buf[e..]);
      } else {
        assert buf[e..] == [];
        assert buf[..e] == buf;
      }
      assert buf[..e] + buf[e..] == buf;
    }
  }

  /** Concatenating the written chunks and swapping again gives back the
      frame buffer: nothing is lost, duplicated or reordered. */
  lemma ChunksRoundTrip(buf: seq<Byte>, size: nat)
    requires size > 0 && size % 2 == 0
    ensures |Flatten(Chunks(buf, size))| == |buf|
    ensures SwapPairs(Flatten(Chunks(buf, size))) == buf
  {
    ChunksFlatten(buf, size);
    SwapPairsInvolutive(buf);
  }

  /** The chunks from `i` on are the chunk from `i` to `end`, then the chunks
      from `end` on. */
  lemma ChunksFrom(buf: seq<Byte>, i: nat, end: nat)
    requires i < end <= |buf|
    requires end == if i + ChunkSize < |buf| then i + ChunkSize else |buf|
    ensures Chunks(buf[i..], ChunkSize) == [SwapPairs(buf[i..end])] + Chunks(buf[end..], ChunkSize)
  {
    var b, e := buf[i..], end - i;
    assert b[..e] == buf[i..end];
    assert b[e..] == buf[end..];
  }

  /** One step of the refresh loop: appending the chunk from `i` to `end` to
      the chunks written so far keeps the loop invariant. */
  lemma ChunksStep(buf: seq<Byte>, i: nat, end: nat, done: seq<seq<Byte>>)
    requires i < end <= |buf|
    requires end == if i + ChunkSize < |buf| then i + ChunkSize else |buf|
    requires done + Chunks(buf[i..], ChunkSize) == Chunks(buf, ChunkSize)
    ensures (done + [SwapPairs(buf[i..end])]) + Chunks(buf[end..], ChunkSize) == Chunks(buf, ChunkSize)
  {
    var c, rest := SwapPairs(buf[i..end]), Chunks(buf[end..], ChunkSize);
    ChunksFrom(buf, i, end);
    assert Chunks(buf[i..], ChunkSize) == [c] + rest;
    SeqAssoc(done, [c], rest);
  }

  lemma SeqAssoc<T>(a: seq<T>, b: seq<T>, c: seq<T>)
    ensures (a + b) + c == a + (b + c)
  {
  }

  /** When the loop has consumed the whole buffer, the chunks are complete. */
  lemma ChunksDone(buf: seq<Byte>, done: seq<seq<Byte>>)
    requires done + Chunks(buf[|buf|..], ChunkSize) == Chunks(buf, ChunkSize)
    ensures done == Chunks(buf, ChunkSize)
  {
    assert buf[|buf|..] == [];
    assert done + [] == done;
  }

  /** The inner loop of a refresh: a fresh zeroed chunk filled two bytes at a
      time, high byte first. */
  method SwapChunk(piece: seq<Byte>) returns (chunk: seq<Byte>)
    requires |piece| % 2 == 0
    ensures |chunk| == |piece|
    ensures chunk == SwapPairs(piece)
  {
    var a := new Byte[|piece|](_ => 0);
    var j := 0;
    while j < |piece|
      invariant 0 <= j <= |piece| && j % 2 == 0
      invariant a[..j] == SwapPairs(piece[..j])
      decreases |piece| - j
    {
      SwapPairsStep(piece, j);
      a[j] := piece[j + 1];
      a[j + 1] := piece[j];
      j := j + 2;
    }
    assert piece[..j] == piece;
    chunk := a[..j];
  }

  /** Every slice boundary of the refresh loop is even. */
  lemma StepParity(n: int, i: int, end: int)
    requires n % 2 == 0 && i % 2 == 0
    requires end == if i + ChunkSize < n then i + ChunkSize else n
    ensures end % 2 == 0 && (end - i) % 2 == 0
  {
    if end != n {
      EvenAdd(i, ChunkSize);
    }
    EvenSub(end, i);
  }

  /** The refresh loop as written: chunk starts 0, 512, 1024, ... below the
      buffer length, each chunk swapped and written in turn. */
  method StreamFrame(buf: seq<Byte>) returns (chunks: seq<seq<Byte>>)
    requires |buf| % 2 == 0
    ensures |buf| == 0 <==> |chunks| == 0
    ensures forall k :: 0 <= k < |chunks| ==> 0 < |chunks[k]| <= ChunkSize
    ensures Flatten(chunks) == SwapPairs(buf)
    ensures chunks == Chunks(buf, ChunkSize)
  {
    var n := |buf|;
    chunks := [];
    var i := 0;
    while i < n
      invariant 0 <= i <= n && i % 2 == 0
      invariant chunks + Chunks(buf[i..], ChunkSize) == Chunks(buf, ChunkSize)
      decreases n - i
    {
      // `end` is `min(i + CHUNK, n)`; the next start is `i + CHUNK` whenever
      // the loop goes on, so stepping to `end` visits the same starts.
      var end := if i + ChunkSize < n then i + ChunkSize else n;
      StepParity(n, i, end);
      var chunk := SwapChunk(buf[i..end]);
      ChunksStep(buf, i, end, chunks);
      chunks := chunks + [chunk];
      i := end;
    }
    ChunksDone(buf, chunks);
    ChunkSizes(buf, ChunkSize);
    ChunksFlatten(buf, ChunkSize);
  }
}

=== FILE: xl9555.dfy ===
/** The XL9555 16-pin I2C GPIO expander driver: a two-byte output cache and a
    two-byte direction cache, mirrored into the chip's registers by I2C
    writes. The bus is the driver's log of `RegWrite`/`RegRead` events; what
    the chip answers to a read of an input register comes from an `Inputs`
    snapshot supplied by the caller. Pin `p` lives in port `p / 8` at bit
    `p % 8`; a direction bit of 1 makes the pin an input, 0 an output. */
module Xl9555 {
  import opened Bits
  import opened Outcomes
  import opened Bus

  const RegInput0: Byte := 0x00
  const RegOutput0: Byte := 0x02
  const RegConfig0: Byte := 0x06

  /** Pins named by the helpers below, numbered as the driver numbers them. */
  const P00 := 0
  const P01 := 1
  const P02 := 2
  const P03 := 3
  const P04 := 4
  const P10 := 8
  const P11 := 9

  predicate IsPort(port: int) {
    port == 0 || port == 1
  }

  predicate IsPin(pin: int) {
    0 <= pin <= 15
  }

  /** A value per port: the driver keeps each cache as a two-element list. */
  datatype Ports = Ports(p0: int, p1: int) {
    function At(port: int): int
      requires IsPort(port)
    {
      if port == 0 then p0 else p1
    }

    function With(port: int, v: int): (r: Ports)
      requires IsPort(port)
      ensures r.At(port) == v && r.At(1 - port) == At(1 - port)
    {
      if port == 0 then Ports(v, p1) else Ports(p0, v)
    }
  }

  /** What the two input registers read back, as the bus delivers bytes. */
  datatype Inputs = Inputs(port0: Byte, port1: Byte) {
    function At(port: int): Byte
      requires IsPort(port)
    {
      if port == 0 then port0 else port1
    }
  }

  datatype Expander = Expander(output: Ports, config: Ports, log: seq<Event>)

  /** Both caches hold bytes: true after construction and kept by every
      operation that succeeds. */
  predicate Valid(e: Expander) {
    IsByte(e.output.p0) && IsByte(e.output.p1) && IsByte(e.config.p0) && IsByte(e.config.p1)
  }

  /** `_write_reg`: `bytes([reg, value])` raises before anything is sent when
      `value` is not a byte. */
  function WriteReg(e: Expander, reg: Byte, value: int): Step<Expander, ()>
  {
    if IsByte(value) then Step(e.(log := e.log + [RegWrite(reg, value)]), Ok(()))
    else Step(e, Err(BadByte))
  }

  /** `_read_reg`: the register pointer write; the value read is the caller's. */
  function ReadReg(e: Expander, reg: Byte): Expander
  {
    e.(log := e.log + [RegRead(reg)])
  }

  /** `config`: both direction caches are replaced, then both registers written. */
  function Config(e: Expander, c0: int, c1: int): (s: Step<Expander, ()>)
    ensures s.state.config == Ports(c0, c1) && s.state.output == e.output
    ensures s.out.Ok? <==> IsByte(c0) && IsByte(c1)
    ensures s.out.Ok? ==> s.state.log == e.log + [RegWrite(RegConfig0, c0), RegWrite(RegConfig0 + 1, c1)]
    ensures !IsByte(c0) ==> s.state.log == e.log
    ensures IsByte(c0) && !IsByte(c1) ==> s.state.log == e.log + [RegWrite(RegConfig0, c0)]
  {
    var s0 := WriteReg(e.(config := Ports(c0, c1)), RegConfig0, c0);
    if s0.out.Err? then s0 else WriteReg(s0.state, RegConfig0 + 1, c1)
  }

  /** After `config`, the output word is what it was, and every pin reads
      according to its new direction: an input from the chip's input
      register, an output from the output cache. */
  lemma ConfigThenRead(e: Expander, c0: int, c1: int, pin: int, inp: Inputs)
    requires IsPin(pin)
    ensures var e' := Config(e, c0, c1).state;
      && GetOutput(e') == GetOutput(e)
      && (BitOf(Ports(c0, c1).At(pin / 8), pin % 8) == 1 ==>
            ReadPin(e', pin, inp) == Step(ReadReg(e', RegInput0 + pin / 8), Ok(BitOf(inp.At(pin / 8), pin % 8))))
      && (BitOf(Ports(c0, c1).At(pin / 8), pin % 8) == 0 ==>
            ReadPin(e', pin, inp) == Step(e', Ok(BitOf(e.output.At(pin / 8), pin % 8))))
  {
  }

  /** `get_input`: reads port 0 then port 1 and combines them as `(port1 << 8) | port0`. */
  function GetInput(e: Expander, inp: Inputs): (s: Step<Expander, int>)
    ensures s.out.Ok? && 0 <= s.out.value <= 0xFFFF
    ensures Lo(s.out.value) == inp.port0 && Hi(s.out.value) == inp.port1
    ensures forall b: nat :: b < 8 ==> BitOf(s.out.value, b) == BitOf(inp.port0, b)
    ensures forall b: nat :: b < 8 ==> BitOf(s.out.value, b + 8) == BitOf(inp.port1, b)
    ensures s.state == e.(log := e.log + [RegRead(RegInput0), RegRead(RegInput0 + 1)])
  {
    var word := Join(inp.port1, inp.port0);
    JoinSplit(inp.port1, inp.port0);
    JoinBits(inp.port1, inp.port0, 0);
    assert forall b: nat :: BitOf(word, b) == if b < 8 then BitOf(inp.port0, b) else BitOf(inp.port1, b - 8) by {
      forall b: nat
        ensures BitOf(word, b) == if b < 8 then BitOf(inp.port0, b) else BitOf(inp.port1, b - 8)
      {
        JoinBits(inp.port1, inp.port0, b);
      }
    }
    Step(ReadReg(ReadReg(e, RegInput0), RegInput0 + 1), Ok(word))
  }

  /** `get_input_port`: one register read, or ValueError for a bad port. */
  function GetInputPort(e: Expander, port: int, inp: Inputs): (s: Step<Expander, int>)
    ensures !IsPort(port) ==> s == Step(e, Err(BadPort))
    ensures IsPort(port) ==> s.out == Ok(inp.At(port)) && s.state == e.(log := e.log + [RegRead(RegInput0 + port)])
  {
    if !IsPort(port) then Step(e, Err(BadPort))
    else Step(ReadReg(e, RegInput0 + port), Ok(inp.At(port)))
  }

  /** `set_output`: the low byte goes to port 0 and the next byte to port 1. */
  function SetOutput(e: Expander, v: int): (r: Expander)
    ensures Valid(e) ==> Valid(r)
    ensures r.output == Ports(Lo(v), Hi(v)) && r.config == e.config
    ensures r.log == e.log + [RegWrite(RegOutput0, Lo(v)), RegWrite(RegOutput0 + 1, Hi(v))]
  {
    e.(output := Ports(Lo(v), Hi(v)), log := e.log + [RegWrite(RegOutput0, Lo(v)), RegWrite(RegOutput0 + 1, Hi(v))])
  }

  /** `set_output_port`: ValueError for a bad port; otherwise the cache entry
      is replaced first and the register write can still raise for a value
      that is not a byte. */
  function SetOutputPort(e: Expander, port: int, v: int): (s: Step<Expander, ()>)
    ensures !IsPort(port) ==> s == Step(e, Err(BadPort))
    ensures IsPort(port) ==>
      && s.state.output.At(port) == v
      && s.state.output.At(1 - port) == e.output.At(1 - port)
      && s.state.config == e.config
      && (s.out.Ok? <==> IsByte(v))
      && (s.out.Ok? ==> s.state.log == e.log + [RegWrite(RegOutput0 + port, v)])
      && (s.out.Err? ==> s.state.log == e.log)
  {
    if !IsPort(port) then Step(e, Err(BadPort))
    else WriteReg(e.(output := e.output.With(port, v)), RegOutput0 + port, v)
  }

  /** `get_output`: the cached output word `(cache[1] << 8) | cache[0]`; no bus traffic. */
  function GetOutput(e: Expander): (r: int)
    ensures Valid(e) ==> 0 <= r <= 0xFFFF && Lo(r) == e.output.p0 && Hi(r) == e.output.p1
  {
    var w := Join(e.output.p1, e.output.p0);
    assert Valid(e) ==> 0 <= w <= 0xFFFF && Lo(w) == e.output.p0 && Hi(w) == e.output.p1 by {
      if Valid(e) {
        JoinBits(e.output.p1, e.output.p0, 0);
        JoinSplit(e.output.p1, e.output.p0);
      }
    }
    w
  }

  /** The caches and the bus after driving `pin` to `level`: that one bit of
      its port's output cache takes the level and nothing else in either
      cache changes; the port's new value goes out when it is a byte, and
      otherwise `bytes` raises before anything is sent. */
  ghost predicate Driven(e: Expander, e': Expander, pin: int, level: bool)
    requires IsPin(pin)
  {
    var port, bit := pin / 8, pin % 8;
    && BitOf(e'.output.At(port), bit) == (if level then 1 else 0)
    && (forall b: nat :: b != bit ==> BitOf(e'.output.At(port), b) == BitOf(e.output.At(port), b))
    && e'.output.At(1 - port) == e.output.At(1 - port)
    && e'.config == e.config
    && e'.log == e.log + (if IsByte(e'.output.At(port)) then [RegWrite(RegOutput0 + port, e'.output.At(port))] else [])
  }

  /** `write_pin`: sets or clears one bit of the cached port and writes that
      port; the cache is updated even when the write then raises. */
  function WritePin(e: Expander, pin: int, level: bool): (s: Step<Expander, ()>)
    ensures !IsPin(pin) ==> s == Step(e, Err(BadPin))
    ensures IsPin(pin) ==>
      && Driven(e, s.state, pin, level)
      && (s.out.Ok? <==> IsByte(s.state.output.At(pin / 8)))
      && (s.out.Ok? <==> IsByte(e.output.At(pin / 8)))
      && (s.out.Err? ==> s.out.error == BadByte)
    ensures IsPin(pin) && Valid(e) ==> s.out.Ok? && Valid(s.state)
  {
    if !IsPin(pin) then Step(e, Err(BadPin))
    else
      var port, bit := pin / 8, pin % 8;
      var cur := e.output.At(port);
      var v := if level then SetBit(cur, bit) else ClearBit(cur, bit);
      SetBitBits(cur, bit);
      ClearBitBits(cur, bit);
      BitUpdateByte(cur, bit);
      WriteReg(e.(output := e.output.With(port, v)), RegOutput0 + port, v)
  }

  /** `read_pin`: an input pin is read from the chip; an output pin is
      answered from the output cache without touching the bus. */
  function ReadPin(e: Expander, pin: int, inp: Inputs): (s: Step<Expander, int>)
    ensures !IsPin(pin) ==> s == Step(e, Err(BadPin))
    ensures IsPin(pin) ==> s.out.Ok? && (s.out.value == 0 || s.out.value == 1)
    ensures IsPin(pin) && BitOf(e.config.At(pin / 8), pin % 8) == 0 ==>
      s.state == e && s.out.value == BitOf(e.output.At(pin / 8), pin % 8)
    ensures IsPin(pin) && BitOf(e.config.At(pin / 8), pin % 8) == 1 ==>
      s.state == ReadReg(e, RegInput0 + pin / 8) && s.out.value == BitOf(inp.At(pin / 8), pin % 8)
  {
    if !IsPin(pin) then Step(e, Err(BadPin))
    else
      var port, bit := pin / 8, pin % 8;
      if BitOf(e.config.At(port), bit) == 1 then
        Step(ReadReg(e, RegInput0 + port), Ok(BitOf(inp.At(port), bit)))
      else
        Step(e, Ok(BitOf(e.output.At(port), bit)))
  }

  /** `toggle_pin`: reads the pin, then writes the opposite level: the
      cached bit for an output pin, the chip's input bit for an input pin. */
  function TogglePin(e: Expander, pin: int, inp: Inputs): (s: Step<Expander, ()>)
    ensures !IsPin(pin) ==> s == Step(e, Err(BadPin))
    ensures IsPin(pin) && BitOf(e.config.At(pin / 8), pin % 8) == 0 ==>
      && Driven(e, s.state, pin, BitOf(e.output.At(pin / 8), pin % 8) == 0)
      && BitOf(s.state.output.At(pin / 8), pin % 8) == 1 - BitOf(e.output.At(pin / 8), pin % 8)
      && (s.out.Ok? <==> IsByte(e.output.At(pin / 8)))
    ensures IsPin(pin) && BitOf(e.config.At(pin / 8), pin % 8) == 1 ==>
      && Driven(ReadReg(e, RegInput0 + pin / 8), s.state, pin, BitOf(inp.At(pin / 8), pin % 8) == 0)
      && (s.out.Ok? <==> IsByte(e.output.At(pin / 8)))
    ensures IsPin(pin) && Valid(e) ==> s.out.Ok? && Valid(s.state)
  {
    var r := ReadPin(e, pin, inp);
    if r.out.Err? then Step(r.state, Err(r.out.error))
    else WritePin(r.state, pin, r.out.value == 0)
  }

  /** `set_backlight`: drives P02. */
  function SetBacklight(e: Expander, on: bool): (s: Step<Expander, ()>)
    ensures Driven(e, s.state, P02, on) && (s.out.Ok? <==> IsByte(s.state.output.p0))
    ensures Valid(e) ==> s.out.Ok? && Valid(s.state)
  {
    WritePin(e, P02, on)
  }

  /** `set_lcd_power`: drives P03. */
  function SetLcdPower(e: Expander, on: bool): (s: Step<Expander, ()>)
    ensures Driven(e, s.state, P03, on) && (s.out.Ok? <==> IsByte(s.state.output.p0))
    ensures Valid(e) ==> s.out.Ok? && Valid(s.state)
  {
    WritePin(e, P03, on)
  }

  /** `beep`: drives P04. */
  function Beep(e: Expander, enable: bool): (s: Step<Expander, ()>)
    ensures Driven(e, s.state, P04, enable) && (s.out.Ok? <==> IsByte(s.state.output.p0))
    ensures Valid(e) ==> s.out.Ok? && Valid(s.state)
  {
    WritePin(e, P04, enable)
  }

  /** The input-word bit that `key_scan` tests for key `k`, in priority order. */
  function KeyBit(k: int): nat
    requires 0 <= k < 4
  {
    if k == 0 then P11 else if k == 1 then P10 else if k == 2 then P01 else P00
  }

  /** Keys are active low: a key is pressed when its input bit reads 0. */
  predicate KeyPressed(word: int, k: int)
    requires 0 <= k < 4
  {
    BitOf(word, KeyBit(k)) == 0
  }

  /** `key_scan`: the first pressed key in the order 0, 1, 2, 3, or -1. */
  function KeyScan(e: Expander, inp: Inputs): (s: Step<Expander, int>)
    ensures s.state == GetInput(e, inp).state && s.out.Ok?
    ensures -1 <= s.out.value < 4
    ensures var word := GetInput(e, inp).out.value;
      && (s.out.value == -1 <==> forall k :: 0 <= k < 4 ==> !KeyPressed(word, k))
      && (s.out.value >= 0 ==>
            KeyPressed(word, s.out.value) && forall k :: 0 <= k < s.out.value ==> !KeyPressed(word, k))
  {
    var g := GetInput(e, inp);
    var word := g.out.value;
    var key :=
      if BitOf(word, P11) == 0 then 0
      else if BitOf(word, P10) == 0 then 1
      else if BitOf(word, P01) == 0 then 2
      else if BitOf(word, P00) == 0 then 3
      else -1;
    assert key >= 0 ==> KeyPressed(word, key);
    Step(g.state, Ok(key))
  }

  /** The constructor: direction 0x03/0xF0, then every output driven high. */
  function Create(): (e: Expander)
    ensures Valid(e)
    ensures e.config == Ports(0x03, 0xF0) && e.output == Ports(0xFF, 0xFF)
    ensures e.log == [RegWrite(RegConfig0, 0x03), RegWrite(RegConfig0 + 1, 0xF0),
                      RegWrite(RegOutput0, 0xFF), RegWrite(RegOutput0 + 1, 0xFF)]
  {
    var e0 := Expander(Ports(0x00, 0x00), Ports(0xFF, 0xFF), []);
    SetOutput(Config(e0, 0x03, 0xF0).state, 0xFFFF)
  }

  // -----------------------------------------------------------------------
  // Properties relating several operations

  /** Writing an output pin and reading it back returns the written level
      without a bus read. */
  lemma WriteThenRead(e: Expander, pin: int, level: bool, inp: Inputs)
    requires IsPin(pin) && BitOf(e.config.At(pin / 8), pin % 8) == 0
    ensures var w := WritePin(e, pin, level).state;
      ReadPin(w, pin, inp) == Step(w, Ok(if level then 1 else 0))
  {
  }

  /** Toggling an output pin twice restores both output caches. */
  lemma ToggleTwice(e: Expander, pin: int, inp: Inputs)
    requires IsPin(pin) && BitOf(e.config.At(pin / 8), pin % 8) == 0
    ensures TogglePin(TogglePin(e, pin, inp).state, pin, inp).state.output == e.output
  {
    var port, bit := pin / 8, pin % 8;
    var v := e.output.At(port);
    var t1 := TogglePin(e, pin, inp).state;
    var t2 := TogglePin(t1, pin, inp).state;
    if BitOf(v, bit) == 1 {
      assert t1.output.At(port) == ClearBit(v, bit);
      SetAfterClear(v, bit);
      SetBitNoop(v, bit);
      ClearBitBits(v, bit);
      assert t2.output.At(port) == SetBit(ClearBit(v, bit), bit);
    } else {
      assert t1.output.At(port) == SetBit(v, bit);
      ClearAfterSet(v, bit);
      ClearBitNoop(v, bit);
      SetBitBits(v, bit);
      assert t2.output.At(port) == ClearBit(SetBit(v, bit), bit);
    }
    assert t2.output.At(port) == v;
    assert t2.output.At(1 - port) == e.output.At(1 - port);
  }

  /** `set_output(v)` followed by `get_output()` returns the low 16 bits of
      `v`, so `v` itself for every `v` in 0..0xFFFF. */
  lemma SetThenGetOutput(e: Expander, v: int)
    ensures GetOutput(SetOutput(e, v)) == v % 65536
    ensures 0 <= v <= 0xFFFF ==> GetOutput(SetOutput(e, v)) == v
  {
    var r := SetOutput(e, v);
    assert GetOutput(r) == Join(Hi(v), Lo(v));
    SplitJoin(v);
    if 0 <= v <= 0xFFFF {
      DivModUnique(v, 65536, 0, v);
    }
  }

  /** `get_output` after `set_output_port` with a byte: the byte appears at
      that port's place in the output word and the other port's byte stays. */
  lemma SetOutputPortThenGet(e: Expander, port: int, v: int)
    requires IsPort(port) && IsByte(v) && IsByte(e.output.At(1 - port))
    ensures var w := GetOutput(SetOutputPort(e, port, v).state);
      && (port == 0 ==> Lo(w) == v && Hi(w) == e.output.p1)
      && (port == 1 ==> Hi(w) == v && Lo(w) == e.output.p0)
  {
    var o := SetOutputPort(e, port, v).state.output;
    JoinSplit(o.p1, o.p0);
  }

  /** After construction the two bits `key_scan` reads for keys 0 and 1
      (pins 9 and 8) are configured as outputs driven high, while the bits
      for keys 2 and 3 (pins 1 and 0) are inputs. */
  lemma KeyScanPinDirections()
    ensures var e := Create();
      && BitOf(e.config.p1, P11 - 8) == 0 && BitOf(e.config.p1, P10 - 8) == 0
      && BitOf(e.output.p1, P11 - 8) == 1 && BitOf(e.output.p1, P10 - 8) == 1
      && BitOf(e.config.p0, P01) == 1 && BitOf(e.config.p0, P00) == 1
  {
  }
}
